=== FILE: README.md ===
# Progol portfolio core, modelled in Dafny

Progol is a Mexican football pool. A slip ("quiniela") predicts home win (L), draw (E)
or away win (V) for each of 14 matches. This project models the logic core of the QRP
Progol application, the three classes in `src/App.js` and the configuration they read:

- **Configuration** (`PROGOL_CONFIG`). Historical bands of the pooled L/E/V shares, four
  to six draws per ticket, concentration caps of 0.60 and 0.70, and the calibration and
  draw-propensity weights. Module `Config`.
- **`MatchClassifier`**. Contextual calibration of a home/draw/away triple, then
  renormalisation. Then the four-way category (Ancla, TendenciaEmpate, Divisor, Neutro),
  the suggested outcome and the confidence. Module `Classifier`.
- **`PortfolioGenerator`**, in several modules:
  - The base ticket, the second choice, the random variation, the four core tickets,
    the satellite pairs and the extra satellite (`Generator`).
  - The draw-count repair `ajustarEmpates` (`DrawRepair`), whose sorts are stable and
    are modelled by `Ranking`.
  - Outcome distribution and Hamming distance (`Tickets`).
  - The portfolio objective `1 - prod(1 - p_i)` (`Objective`) and the diversity measure
    (`Diversity`).
  - The GRASP construction and the simulated-annealing refinement of
    `optimizePortfolioGRASPAnnealing`, with the neighbour move `generarVecino`
    (`Optimizer`).
- **`PortfolioValidator`**. The band, draw and concentration checks, the verdict and the
  metrics. Module `Validator`.

Probabilities are exact `real`s. Every `Math.random()` is an explicit input: a real in
[0, 1) for a coin or an index draw, or a boolean for the Metropolis test. The Monte Carlo
estimate of eleven or more hits is an opaque real carried by each ticket. Where the
source would produce `NaN` (a zero calibration total, the distribution of an empty
ticket), the model returns `None`.

Where the methodology's description and the code differ, the model follows the code:

- The classifier has four labels, not five.
- The annealing phase keeps the latest accepted portfolio, not the best one seen.
  `Optimizer.Anneal` says so.
- The draw repair may turn an anchor match into a draw (`DrawRepair.FillRepair` names
  the positions it may change).
- The base ticket's cap of six draws does not bound its draws
  (`Generator.BaseCapDoesNotBound`).
- The over-represented outcome named in a concentration error is the later of L, E, V
  among equals (`Tickets.TopOutcome`).

## Model

| member | source | states |
|---|---|---|
| Config.Coherent | src/App.js:9-22 | the historical shares add up to one and each lies inside its band; the mean of 4.33 draws lies between the limits 4 and 6 |
| Numeric.ScaledIndex | src/App.js:478-479 | `Math.floor(u * n)` for `u` in [0, 1) is the index `k < n` with `k <= u * n < k + 1` |
| Tickets.TopOutcome | src/App.js:686-688 | the `reduce` over L, E, V returns an outcome of largest value, and no later outcome reaches that value (ties go to the later key) |
| Tickets.Overwrite | src/App.js:335-337 | writing the listed positions one after the other leaves a ticket of the same length: the new pick at listed positions, the old one elsewhere |
| Tickets.Distribution | src/App.js:420-427 | an empty ticket has no distribution; otherwise each share is its count over the length, lies in [0, 1], and the three shares add up to 1 |
| Tickets.HammingZeroIffEqual | src/App.js:561-563 | two tickets of one length are at distance 0 exactly when they are equal |
| Tickets.HammingSymmetric | src/App.js:561-563 | for tickets of one length, the distance does not depend on the order of the arguments |
| Tickets.HammingTriangle | src/App.js:561-563 | the distance obeys the triangle inequality |
| Tickets.HammingUpdate | src/App.js:561-563 | overwriting one pick moves a ticket by 1 if the pick changes and by 0 otherwise |
| Tickets.HammingCountsDrawChanges | src/App.js:561-563 | when every change adds a draw, the distance equals the draws gained; when every change removes one, it equals the draws lost |
| Ranking.Sort | src/App.js:333 | the stable numeric sort, largest key first, of increasing positions: a permutation in which `i` precedes `j` exactly when `i` has the larger key, or an equal key and the smaller position |
| Ranking.LeadersPrecede | src/App.js:335-336 | every entry among the first `k` of the sorted list precedes, in that order, every entry after them |
| Classifier.Propensity | src/App.js:91-96 | the draw changes only when home and away are closer than 0.08 and the draw exceeds both; it then becomes `min(draw + 0.06, 0.95)`; a positive draw stays positive |
| Classifier.Unnormalised | src/App.js:78-96 | home is scaled by `1 + 0.15 form + 0.10 injuries + 0.20 [final]`; away is divided by that factor, floored at 0.1; draw goes through the propensity rule |
| Classifier.Calibrate | src/App.js:98-105 | there is no result exactly when the total is 0; otherwise each value is its unnormalised value divided by the total, so the three add up to 1; with a positive factor and positive inputs, all three are positive |
| Classifier.Classify | src/App.js:109-120 | exactly one of four labels, decided in order: Ancla iff max > 0.60; else TendenciaEmpate iff draw > 0.30 and draw >= max(home, away); else Divisor iff 0.40 <= max < 0.60; else Neutro |
| Classifier.Suggested | src/App.js:122-129 | an outcome of largest probability; no later outcome (in the order L, E, V) is as large |
| Classifier.Order | src/App.js:131-133 | the descending stable sort of the three probabilities: each outcome sits at its rank, the first holds the maximum, the last the minimum |
| Classifier.Confidence | src/App.js:131-135 | the gap between the two largest probabilities; never negative, and 0 exactly when two outcomes share the maximum |
| Classifier.Label | src/App.js:64-72 | the classified record keeps id, teams and calibrated probabilities, and its category, suggestion and confidence are those of the probabilities |
| Classifier.CalibrateAll | src/App.js:57-60 | succeeds exactly when every match calibrates, giving each match's calibrated triple in order |
| Classifier.ClassifyMatches | src/App.js:57-74 | one consistent record per match, in order, with ids 0, 1, ...; fails exactly when some match cannot be renormalised |
| Classifier.AnchorHasClearMargin | src/App.js:109-135 | with probabilities summing to one, an anchor's confidence exceeds 0.20 and its maximum is not tied |
| Classifier.DrawLeaningSuggestsNoHomeWin | src/App.js:114-128 | a draw-leaning match never suggests a home win |
| Classifier.NeutralBands | src/App.js:109-120 | with probabilities summing to one, a neutral match has its maximum below 0.40 or exactly 0.60 |
| Classifier.PropensityCapCanLowerDraw | src/App.js:93-96 | for every input where the rule applies, a draw probability above 0.95 is lowered by the cap, and such an input exists |
| DrawRepair.FillCandidates | src/App.js:327-331 | exactly the positions that hold no draw and whose match's draw probability exceeds 0.20, increasing; anchors are included |
| DrawRepair.DrawPositions | src/App.js:342-346 | exactly the positions holding a draw, increasing, one per draw |
| DrawRepair.AdjustDraws | src/App.js:318-357 | a new ticket of the same length; a ticket with 4 to 6 draws comes back unchanged |
| DrawRepair.FillPlanFacts | src/App.js:323-337 | the fill plan holds `min(4 - draws, #candidates)` distinct candidates, every candidate when there are few enough, and each planned one precedes every unplanned one (larger draw probability, or equal and earlier) |
| DrawRepair.TrimPlanFacts | src/App.js:338-353 | the trim plan holds `draws - 6` distinct draw positions, and each precedes every unplanned draw (smaller draw probability, or equal and earlier) |
| DrawRepair.FillRepair | src/App.js:323-337 | below four draws, only fillable positions change, each to a draw; exactly `min(4 - draws, #fillable)` change and that many draws are gained; the changed positions have the largest draw probabilities |
| DrawRepair.FillMayFallShort | src/App.js:323-337 | a ticket below four draws with nothing fillable comes back unchanged and still below four |
| DrawRepair.TrimChanges | src/App.js:338-354 | above six draws, a position changes exactly when it is one of the `draws - 6` planned draws and its match suggests something other than a draw, and it then takes that suggestion |
| DrawRepair.TrimCount | src/App.js:338-354 | above six draws, the count ends between 6 and the original, and equals 6 when no planned match suggests a draw |
| DrawRepair.TrimRepair | src/App.js:338-354 | above six draws, only draws change, each to the suggested outcome, and exactly at the planned draws whose match suggests something else; the count ends between 6 and the original, and equals 6 when no planned match suggests a draw; the distance equals the draws lost |
| DrawRepair.TrimKeepsSuggestedDraws | src/App.js:350-353 | a ticket whose draws all sit at matches that suggest a draw comes back unchanged, still above six draws |
| DrawRepair.TrimOrder | src/App.js:348-353 | a reverted draw never has a larger draw probability than a draw that stays although its match suggests otherwise |
| DrawRepair.RepairKeepsBounds | src/App.js:318-357 | the repair never breaks a draw bound the ticket meets, and reaches at least four draws when enough positions are fillable |
| DrawRepair.RepairSettles | src/App.js:318-357 | repairing again a repaired ticket that had at most six draws changes nothing |
| Generator.Alternative | src/App.js:306-316 | the outcome at rank 1 of the stable descending sort: its probability lies between the minimum and the maximum and is the middle value |
| Generator.AlternativeMatchesSuggested | src/App.js:306-316 | the second choice equals the suggestion exactly when two but not all three outcomes share the maximum, so pairwise distinct probabilities give different outcomes |
| Generator.ConfidenceIsMargin | src/App.js:131-135 | when the second choice differs from the suggestion, the confidence is the suggestion's probability minus the second choice's |
| Generator.Base | src/App.js:179-200 | every non-draw-leaning match takes its suggestion; a draw-leaning match takes a draw exactly when fewer than six draws precede it, and otherwise its suggestion |
| Generator.BaseDrawsAtLeast | src/App.js:179-200 | the base ticket has at least `min(6, #draw-leaning matches)` draws |
| Generator.BaseCapDoesNotBound | src/App.js:187-195 | a slate of draw-leaning matches that suggest a draw yields a ticket of draws only, past the cap of six |
| Generator.DrawLeaningSuggestsDraw | src/App.js:114-129 | a consistent draw-leaning record suggests a draw unless the draw ties the away win |
| Generator.NonAnchors | src/App.js:361-367 | exactly the non-anchor positions, increasing |
| Generator.Divisors | src/App.js:207-210 | exactly the Divisor positions, increasing |
| Generator.Shuffle | src/App.js:380-387 | the Fisher-Yates shuffle returns a permutation of its input and keeps a repeat-free list repeat-free |
| Generator.VariationPlan | src/App.js:369-371 | `min(1 + variation, #non-anchors)` distinct positions, all non-anchors |
| Generator.VariationFrame | src/App.js:359-378 | a variation keeps every anchor, installs only second choices, changes at most `1 + variation` positions, and exactly that many when no planned pick is already its second choice |
| Generator.Core | src/App.js:152-177 | four core tickets, each with one pick per match |
| Generator.CoreFromBase | src/App.js:155-162 | core ticket `k` is the repair of a draft that is the base ticket for `k = 0` and otherwise keeps the base's anchors and differs from it only by second choices, at no more than `1 + k` positions |
| Generator.Principal | src/App.js:231 | the principal match is Divisor number `parId mod #Divisors` in slate order (so a Divisor match) when there are any, and match 0 otherwise |
| Generator.PrincipalCycle | src/App.js:231 | pairs cycle through the Divisor matches: the assignment repeats with period #Divisors, and within one period the principal matches differ |
| Generator.PairShape | src/App.js:230-258 | A takes every suggestion; B takes the second choice at the principal match, A's pick at the other anchors, and otherwise differs from A only where the coin is below 0.3, with the second choice |
| Generator.PairDiffers | src/App.js:240-242 | when the principal record is consistent with pairwise distinct probabilities, the two drafts differ |
| Generator.SuggestionsKeepTheirDraws | src/App.js:241-271 | when the suggestions hold more than six draws, satellite A keeps them all after repair |
| Generator.SingleShape | src/App.js:283-291 | the extra satellite keeps the base ticket's anchors and differs from the base only at non-anchors whose coin is below 0.4, each with the second choice |
| Generator.Satellites | src/App.js:203-228 | exactly the requested number of satellites, each with one pick per match |
| Generator.SatelliteLayout | src/App.js:203-228 | tickets `2k` and `2k + 1` are pair `k`'s A and B; an odd count ends with the extra satellite |
| Objective.Evaluate | src/App.js:534-542 | 0 for an empty portfolio; in [0, 1] when every estimate is a probability |
| Objective.EvaluatePermutation | src/App.js:537-539 | the objective does not depend on the order of the tickets |
| Objective.AppendGain | src/App.js:471-474 | appending a ticket raises the objective by its estimate times the chance that no earlier ticket hits, which is never negative |
| Objective.ExtendGain | src/App.js:534-542 | appending any number of tickets never lowers the objective |
| Diversity.Comparisons | src/App.js:550-556 | the comparison counter after the nested loops is `n (n - 1) / 2` |
| Diversity.DiversityIsMeanDistance | src/App.js:544-559 | with two or more tickets, diversity is the mean pairwise Hamming distance over 14 |
| Diversity.DiversityBounds | src/App.js:544-559 | for tickets of at most 14 picks, diversity lies in [0, 1] |
| Diversity.ClonesHaveNoDiversity | src/App.js:544-559 | two or more copies of one ticket have diversity 0 |
| Diversity.ComputeDiversity | src/App.js:544-559 | the nested loops compute 1 for fewer than two tickets and otherwise the mean pairwise distance over 14 |
| Validator.BandErrors | src/App.js:642-652 | one error per outcome whose pooled share leaves its band, carrying that share, in the order L, E, V with no repeats; no error exactly when all three shares are in band |
| Validator.DrawErrors | src/App.js:656-664 | one error per ticket outside 4 to 6 draws, naming its position and draw count, in portfolio order with no repeats; no error exactly when every ticket is in range |
| Validator.ConcentrationUpTo | src/App.js:671-694 | reports exactly the overloaded matches checked so far, one error each in match order with no repeats, naming the outcome the `reduce` picks and the top share; all of them when all are overloaded |
| Validator.ConcentrationErrors | src/App.js:667-695 | a portfolio of fewer than two tickets gets no concentration error; otherwise the errors report exactly the overloaded matches among the 14, in match order |
| Validator.MaxProb | src/App.js:702 | an estimate of some ticket that no ticket exceeds |
| Validator.MinProb | src/App.js:703 | an estimate of some ticket that no ticket undercuts |
| Validator.Measure | src/App.js:696-712 | the shares are the pooled shares of each outcome, the mean is the estimates' total over the ticket count, the largest and smallest estimates are those of `MaxProb`/`MinProb`, the portfolio probability is the optimizer's objective and the cost is 15 per ticket |
| Validator.MeasureMeaning | src/App.js:699-711 | efficiency times cost equals 1000 times the portfolio probability; the mean estimate lies between the minimum and the maximum; with probabilities only, the portfolio probability is one too |
| Validator.Validate | src/App.js:599-623 | an empty portfolio is invalid with exactly one error and no metrics; otherwise the errors are the band, draw and concentration errors in that order, the portfolio is valid exactly when there are none, and the metrics are reported |
| Validator.OverloadedIff | src/App.js:680-685 | a match is reported exactly when some outcome's share there exceeds the match's cap |
| Validator.ValidIff | src/App.js:599-694 | valid exactly when the portfolio is non-empty, every pooled share is in band, every ticket has 4 to 6 draws, and (from two tickets on) no outcome exceeds any match's cap |
| Validator.ConcentrationIff | src/App.js:667-694 | no concentration error exactly when no outcome exceeds its match's cap; a single ticket is never checked |
| Validator.ClonesAreConcentrated | src/App.js:667-694 | two or more copies of one 14-pick ticket overload all 14 matches, so the portfolio is invalid |
| Validator.CloneOverloaded | src/App.js:674-685 | among copies of one ticket, each match's top share is 1 |
| Optimizer.Candidate | src/App.js:444-457 | a pool candidate has one pick per match and the estimate drawn for it |
| Optimizer.CandidateFrame | src/App.js:445-447 | before repair a candidate differs from the base ticket at no more than five matches; a draft already holding 4 to 6 draws is kept as it is |
| Optimizer.Pool | src/App.js:441-462 | one candidate per draw, each with one pick per match |
| Optimizer.TopCount | src/App.js:467-478 | `max(1, floor(0.15 n))` lies between 1 and the pool size |
| Optimizer.Pick | src/App.js:479 | the selected index lies within the top `TopCount` and within the pool |
| Optimizer.RankPool | src/App.js:476 | the pool sorted by marginal gain, best first, as a permutation of the pool |
| Optimizer.Select | src/App.js:476-480 | the chosen candidate leaves the pool, which stays ranked and one shorter; every candidate ranked below the top `TopCount` scores no more than the chosen one |
| Optimizer.SelectFirst | src/App.js:476-480 | when the draw picks place 0, the chosen candidate has the largest gain in the pool |
| Optimizer.Grasp | src/App.js:466-483 | keeps the initial tickets in front; adds pool candidates only, each at most as often as the pool holds it; stops at the target size or with the pool empty; never lowers the objective |
| Optimizer.GraspGain | src/App.js:470-483 | any extension of the initial tickets by pool candidates scores at least as much as the initial tickets |
| Optimizer.Others | src/App.js:581-583 | the two options other than the current pick, in the order L, E, V |
| Optimizer.Flip | src/App.js:583 | the installed outcome differs from the current one |
| Optimizer.FlipReaches | src/App.js:583 | either other outcome can be installed |
| Optimizer.Neighbor | src/App.js:565-594 | a copy of the portfolio, of the same size, in which every ticket but the chosen one is unchanged; without non-anchor matches it is unchanged |
| Optimizer.NeighborMove | src/App.js:570-590 | the chosen match is a non-anchor; before repair the chosen ticket differs from the old one exactly there; the new ticket is the repaired draft with the fresh estimate |
| Optimizer.Step | src/App.js:492-509 | the state is unchanged, or it becomes the neighbour and the neighbour passed validation; an accepted neighbour that scores at least as high (the Metropolis test `random < exp(0)` always passes at `delta == 0`), or whose Metropolis draw passes, replaces it; a neighbour that fails validation, or scores lower and fails its Metropolis draw, leaves the state exactly as it was |
| Optimizer.Run | src/App.js:491-522 | after any number of iterations the current portfolio is the start or a validated one, and its score is its objective |
| Optimizer.Anneal | src/App.js:486-524 | the loop computes the fold of the iterations; the portfolio returned is the start or one that passed validation (the latest accepted, not the best seen); the temperature ends cooled once per iteration |
| Optimizer.Cooling | src/App.js:488-511 | after `k` iterations, rejected or not, the temperature is `T0 * rate^k` |
| Optimizer.Optimize | src/App.js:434-525 | the constructed portfolio starts with the initial tickets and has the size GRASP reaches; the result has that size, one pick per match in every ticket, and is the constructed portfolio or one the validator accepts |

## Left out

- `calcularProb11Plus` (Monte Carlo sampling) is not modelled. Each ticket carries its estimate as an opaque real, supplied for pool candidates and neighbours by the caller.
- `Math.random()` is an explicit input everywhere. `Math.exp` in the Metropolis test is folded into one boolean per iteration, so the temperature never influences the model's choices; `Optimizer.Cooling` still states the schedule.
- Floating point is modelled as exact reals. `NaN` results are `None`. The `|| 0` defaults for a missing form, injury or estimate are `Option.GetOr` for the first two; every ticket has an estimate.
- The React component, state hooks, progress callbacks, CSV import, export helpers and `createSampleData` are not modelled. They are UI and I/O.
- Error message text is not modelled; errors are kinds with the figures the messages print. The validator's `warnings` list is never filled in the source, so it is not modelled. Of the metrics, the pooled shares, the mean, maximum and minimum estimates, the objective, the cost and the efficiency are kept.
- Ticket records are reduced to picks and estimate. The `id`, `tipo`, `par_id`, `empates` and `distribucion` fields are derived or cosmetic.
- The `quinielasCore` parameter of `generateSatelliteQuinielas` is unused by the source and dropped.
- The application's call sequence (core, then satellites from `numQuinielas - 4`, then the optimizer started from the core tickets alone) is not modelled. `Optimize` takes the initial tickets and the settings as parameters, and `Config.Defaults` records the defaults.
- Generator.PairDrafts: takes one coin per match and ignores the coins of the principal match and of the anchors, where the source draws none. The pair depends only on the coins it reads.
- Generator.CoreDraft, Generator.ApplyVariation, Generator.Pair, Generator.Single and Generator.CoreDraws need one pick per match for each ticket, because every ticket the source builds has one pick per match. `DrawRepair.AdjustDraws` needs no more picks than matches for the same reason; the source's fill and trim branches read `partidosClasificados[i]` at every position they inspect, which would be undefined past the slate's end (a ticket already holding 4 to 6 draws is returned without reading a match).
- Validator.DrawErrors and Validator.ConcentrationUpTo: the error kinds carry 0-based ticket and match positions, where the messages print `quiniela.id || i+1` and `partidoIdx + 1`; tickets carry no `id` in the model.
- DrawRepair.RepairSettles: stated for tickets with at most six draws; a trimmed ticket also settles, but proving it needs the stable sort's order to survive removing the reverted draws, which is not proved.
- Optimizer.CandidateFrame: bounds the change by five positions, the largest variation level, not by the level actually drawn. `Generator.VariationFrame` gives the per-level bound.
- Optimizer.RankPool: states the best-first order and the permutation, not which of two equal gains comes first. The underlying `Ranking.Sort` states that tie order.
- Optimizer.Neighbor: requires one pick per match in every ticket, because every ticket the source builds has one. A shorter ticket would make `generarVecino` read the pick at a match index past its end; a longer one is not read beyond the slate.
- Optimizer.Optimize: requires exactly 1000 pool draws, as the source makes, and one GRASP draw per possible round.

=== FILE: classifier.dfy ===
/** The match classifier (`MatchClassifier`): contextual calibration of the home, draw
    and away probabilities, the four-way category, the suggested outcome and the
    confidence of a match. */
module Classifier {
  import opened Numeric
  import opened Optional
  import opened Tickets
  import opened Config
  import Ranking

  /** The labels the code assigns, checked in this order: anchor (near-certain), draw
      leaning, divisor (genuinely uncertain), neutral. */
  datatype Category = Ancla | TendenciaEmpate | Divisor | Neutro

  /** A match as supplied: teams, raw probabilities and the optional context signals
      (form differential, injury impact) plus the decisive-match flag. */
  datatype Match = Match(home: string, away: string, probs: Triple,
                         formDiff: Option<real>, injuryImpact: Option<real>, isFinal: bool)

  /** A match after calibration and classification. */
  datatype Classified = Classified(id: nat, home: string, away: string, probs: Triple,
                                   category: Category, suggested: Outcome, confidence: real)

  /** The adjustment factor `1 + 0.15·form + 0.10·injuries + 0.20·[decisive]`; a missing
      signal counts as zero. */
  function Factor(m: Match): real
  {
    1.0 + FormWeight * m.formDiff.GetOr(0.0) + InjuryWeight * m.injuryImpact.GetOr(0.0)
        + ContextWeight * (if m.isFinal then 1.0 else 0.0)
  }

  /** Home and away are close and the draw is ahead of both. */
  predicate PropensityApplies(home: real, draw: real, away: real)
  {
    Abs(home - away) < PropensityGap && draw > RMax(home, away)
  }

  /** The draw probability after the draw-propensity rule. */
  function Propensity(home: real, draw: real, away: real): (d: real)
    ensures d != draw ==> PropensityApplies(home, draw, away)
    ensures PropensityApplies(home, draw, away) && draw + PropensityBoost <= PropensityCap ==>
              d == draw + PropensityBoost
    ensures PropensityApplies(home, draw, away) ==> d <= PropensityCap
    ensures PropensityApplies(home, draw, away) ==> d == RMin(draw + PropensityBoost, PropensityCap)
    ensures d <= RMax(draw, PropensityCap)
    ensures draw > 0.0 ==> d > 0.0
  {
    if PropensityApplies(home, draw, away) then RMin(draw + PropensityBoost, PropensityCap) else draw
  }

  /** The triple before renormalisation: home scaled by the factor, away divided by it
      (never by less than 0.1), draw passed through the propensity rule. */
  function Unnormalised(m: Match): (u: Triple)
    ensures u.home == m.probs.home * Factor(m)
    ensures u.away * RMax(Factor(m), FactorFloor) == m.probs.away
    ensures u.draw != m.probs.draw ==> PropensityApplies(u.home, m.probs.draw, u.away)
    ensures PropensityApplies(u.home, m.probs.draw, u.away) ==>
              u.draw == RMin(m.probs.draw + PropensityBoost, PropensityCap)
  {
    var f := Factor(m);
    var home := m.probs.home * f;
    var away := m.probs.away / RMax(f, FactorFloor);
    Triple(home, Propensity(home, m.probs.draw, away), away)
  }

  /** Calibrated probabilities (`aplicarCalibracionBayesiana`). The source divides by the
      total without a check; a zero total (which would give `NaN`) is `None` here. */
  function Calibrate(m: Match): (r: Option<Triple>)
    ensures r.None? <==> Unnormalised(m).Sum() == 0.0
    ensures r.Some? ==> r.value.Sum() == 1.0
    ensures r.Some? ==> Scales(r.value, Unnormalised(m))
    ensures Factor(m) > 0.0 && m.probs.home > 0.0 && m.probs.draw > 0.0 && m.probs.away > 0.0 ==>
              r.Some? && r.value.home > 0.0 && r.value.draw > 0.0 && r.value.away > 0.0
  {
    var u := Unnormalised(m);
    if u.Sum() == 0.0 then None
    else
      NormaliseFacts(u);
      Some(Normalise(u))
  }

  /** Each value divided by the total. */
  function Normalise(u: Triple): Triple
    requires u.Sum() != 0.0
  {
    Triple(u.home / u.Sum(), u.draw / u.Sum(), u.away / u.Sum())
  }

  /** `t` is `u` divided by its total: each value of `t` times the total gives `u`'s. */
  predicate Scales(t: Triple, u: Triple)
  {
    forall o :: t.At(o) * u.Sum() == u.At(o)
  }

  lemma NormaliseFacts(u: Triple)
    requires u.Sum() != 0.0
    ensures Normalise(u).Sum() == 1.0
    ensures u.home > 0.0 && u.draw > 0.0 && u.away > 0.0 ==>
              Normalise(u).home > 0.0 && Normalise(u).draw > 0.0 && Normalise(u).away > 0.0
    ensures Scales(Normalise(u), u)
  {
    SharesOfTotal(u.home, u.draw, u.away);
    if u.home > 0.0 && u.draw > 0.0 && u.away > 0.0 {
      NormalisePositive(u);
    }
    NormaliseScales(u);
  }

  lemma NormalisePositive(u: Triple)
    requires u.home > 0.0 && u.draw > 0.0 && u.away > 0.0
    ensures Normalise(u).home > 0.0 && Normalise(u).draw > 0.0 && Normalise(u).away > 0.0
  {
    var t := u.Sum();
    SharePositive(u.home, t);
    SharePositive(u.draw, t);
    SharePositive(u.away, t);
  }

  lemma NormaliseScales(u: Triple)
    requires u.Sum() != 0.0
    ensures Scales(Normalise(u), u)
  {
    var t := u.Sum();
    ShareTimesTotal(u.home, t);
    ShareTimesTotal(u.draw, t);
    ShareTimesTotal(u.away, t);
    forall o
      ensures Normalise(u).At(o) * t == u.At(o)
    {
    }
  }

  lemma ShareTimesTotal(a: real, t: real)
    requires t != 0.0
    ensures (a / t) * t == a
  {
  }

  lemma SharePositive(a: real, t: real)
    requires a > 0.0 && t > 0.0
    ensures a / t > 0.0
  {
  }

  lemma SharesOfTotal(a: real, b: real, c: real)
    requires a + b + c != 0.0
    ensures a / (a + b + c) + b / (a + b + c) + c / (a + b + c) == 1.0
  {
    var t := a + b + c;
    assert a / t + b / t + c / t == (a + b + c) / t;
  }

  /** The category of calibrated probabilities (`clasificarPartido`). */
  function Classify(p: Triple): (c: Category)
    ensures c == Ancla <==> p.Max() > AnchorThreshold
    ensures c == TendenciaEmpate <==>
              p.Max() <= AnchorThreshold && p.draw > DrawThreshold && p.draw >= RMax(p.home, p.away)
    ensures c == Divisor <==>
              p.Max() <= AnchorThreshold && !(p.draw > DrawThreshold && p.draw >= RMax(p.home, p.away))
              && DivisorLow <= p.Max() < DivisorHigh
    ensures c == Neutro <==>
              p.Max() <= AnchorThreshold && !(p.draw > DrawThreshold && p.draw >= RMax(p.home, p.away))
              && !(DivisorLow <= p.Max() < DivisorHigh)
  {
    var top := p.Max();
    if top > AnchorThreshold then Ancla
    else if p.draw > DrawThreshold && p.draw >= RMax(p.home, p.away) then TendenciaEmpate
    else if top >= DivisorLow && top < DivisorHigh then Divisor
    else Neutro
  }

  /** The suggested outcome (`getResultadoSugerido`): of largest probability, ties going to
      the later of L, E, V. */
  function Suggested(p: Triple): (o: Outcome)
    ensures p.At(o) == p.Max()
    ensures forall x: Outcome :: Rank(x) > Rank(o) ==> p.At(x) < p.At(o)
  {
    TopOutcome(p)
  }

  /** Outcome `a` precedes outcome `b` when the three are sorted by probability, largest
      first, keeping the order L, E, V among equals. */
  predicate Ahead(p: Triple, a: Outcome, b: Outcome)
  {
    p.At(a) > p.At(b) || (p.At(a) == p.At(b) && Rank(a) < Rank(b))
  }

  /** How many outcomes precede `o` in that order. */
  function Position(p: Triple, o: Outcome): nat
  {
    (if Ahead(p, L, o) then 1 else 0) + (if Ahead(p, E, o) then 1 else 0) + (if Ahead(p, V, o) then 1 else 0)
  }

  /** The outcomes sorted by probability, largest first, as the stable sort of the
      source leaves them (positions 0, 1, 2 for L, E, V). */
  function Order(p: Triple): (s: seq<nat>)
    ensures |s| == 3 && Ranking.Within(s, 3)
    ensures forall a :: 0 <= a < 3 ==> Position(p, OutcomeAt(s[a])) == a
    ensures p.At(OutcomeAt(s[0])) == p.Max() && p.At(OutcomeAt(s[2])) == p.Min()
    ensures p.At(OutcomeAt(s[0])) + p.At(OutcomeAt(s[1])) + p.At(OutcomeAt(s[2])) == p.Sum()
  {
    var s := Ranking.Sort(Ranking.Upto(3), p.Keys());
    OrderFacts(p, s);
    s
  }

  lemma OrderFacts(p: Triple, s: seq<nat>)
    requires |s| == 3 && Ranking.Within(s, 3) && Ranking.Ranked(s, p.Keys())
    ensures forall a :: 0 <= a < 3 ==> Position(p, OutcomeAt(s[a])) == a
    ensures p.At(OutcomeAt(s[0])) == p.Max() && p.At(OutcomeAt(s[2])) == p.Min()
    ensures p.At(OutcomeAt(s[0])) + p.At(OutcomeAt(s[1])) + p.At(OutcomeAt(s[2])) == p.Sum()
  {
    var k := p.Keys();
    assert Ranking.Before(k, s[0], s[1]) && Ranking.Before(k, s[0], s[2]) && Ranking.Before(k, s[1], s[2]);
    assert s[0] != s[1] && s[0] != s[2] && s[1] != s[2];
    if s[0] == 0 {
      if s[1] == 1 { assert s == [0, 1, 2]; } else { assert s == [0, 2, 1]; }
    } else if s[0] == 1 {
      if s[1] == 0 { assert s == [1, 0, 2]; } else { assert s == [1, 2, 0]; }
    } else {
      if s[1] == 0 { assert s == [2, 0, 1]; } else { assert s == [2, 1, 0]; }
    }
  }

  /** The gap between the two largest probabilities (`calcularConfianza`). */
  function Confidence(p: Triple): (c: real)
    ensures c >= 0.0
    ensures c == p.Max() - (p.Sum() - p.Max() - p.Min())
    ensures c == 0.0 <==> p.TopTie()
  {
    var s := Order(p);
    p.At(OutcomeAt(s[0])) - p.At(OutcomeAt(s[1]))
  }

  /** A classified record whose derived fields are those of its probabilities. */
  predicate Consistent(c: Classified)
  {
    c.category == Classify(c.probs) && c.suggested == Suggested(c.probs) && c.confidence == Confidence(c.probs)
  }

  /** The record `classifyMatches` builds for match `i` from its calibrated probabilities. */
  function Label(i: nat, m: Match, p: Triple): (c: Classified)
    ensures Consistent(c) && c.id == i && c.home == m.home && c.away == m.away && c.probs == p
  {
    Classified(i, m.home, m.away, p, Classify(p), Suggested(p), Confidence(p))
  }

  /** Calibrates every match, or fails when one of them cannot be renormalised. */
  function CalibrateAll(ms: seq<Match>): (r: Option<seq<Triple>>)
    ensures r.Some? <==> forall i :: 0 <= i < |ms| ==> Calibrate(ms[i]).Some?
    ensures r.Some? ==> |r.value| == |ms| && forall i :: 0 <= i < |ms| ==> Some(r.value[i]) == Calibrate(ms[i])
  {
    if |ms| == 0 then Some([])
    else
      var n := |ms| - 1;
      var prefix := CalibrateAll(ms[..n]);
      var last := Calibrate(ms[n]);
      assert forall i :: 0 <= i < n ==> ms[..n][i] == ms[i];
      if prefix.None? || last.None? then None
      else Some(prefix.value + [last.value])
  }

  /** Classifies every match (`classifyMatches`): fails when some triple cannot be
      renormalised, otherwise one consistent record per match, in order, with ids
      0, 1, ... and the match's calibrated probabilities. */
  function ClassifyMatches(ms: seq<Match>): (r: Option<seq<Classified>>)
    ensures r.Some? <==> forall i :: 0 <= i < |ms| ==> Calibrate(ms[i]).Some?
    ensures r.Some? ==> |r.value| == |ms|
    ensures r.Some? ==> forall i :: 0 <= i < |ms| ==>
              var c := r.value[i];
              Consistent(c) && c.id == i && c.home == ms[i].home && c.away == ms[i].away
              && Some(c.probs) == Calibrate(ms[i])
  {
    match CalibrateAll(ms)
    case None => None
    case Some(ps) => Some(seq(|ms|, i requires 0 <= i < |ms| => Label(i, ms[i], ps[i])))
  }

  /** With probabilities that add up to one, an anchor's favourite leads the runner-up by
      more than 0.20: the margin the methodology asks of an anchor follows from the
      single threshold the code checks. */
  lemma {:induction false} AnchorHasClearMargin(p: Triple)
    requires p.home >= 0.0 && p.draw >= 0.0 && p.away >= 0.0 && p.Sum() == 1.0
    requires Classify(p) == Ancla
    ensures Confidence(p) > 0.20
    ensures !p.TopTie()
  {
    assert p.Sum() - p.Max() - p.Min() < 0.40;
  }

  /** A draw-leaning match never suggests a home win: the draw is at least the home
      probability, and ties go to the later outcome. */
  lemma DrawLeaningSuggestsNoHomeWin(p: Triple)
    requires Classify(p) == TendenciaEmpate
    ensures Suggested(p) != L
  {
  }

  /** With probabilities that add up to one, a neutral match has its favourite below 0.40
      or at exactly 0.60: the divisor band is half-open and the anchor test strict, so 0.60
      itself falls through to neutral. */
  lemma {:induction false} NeutralBands(p: Triple)
    requires p.home >= 0.0 && p.draw >= 0.0 && p.away >= 0.0 && p.Sum() == 1.0
    requires Classify(p) == Neutro
    ensures p.Max() < DivisorLow || p.Max() == DivisorHigh
  {
    assert p.Max() >= p.home && p.Max() >= p.draw && p.Max() >= p.away;
  }

  /** The propensity cap lowers every draw probability that is already above 0.95 when
      the rule applies, and the rule does apply to some such draw. */
  lemma PropensityCapCanLowerDraw(home: real, draw: real, away: real)
    ensures PropensityApplies(home, draw, away) && draw > PropensityCap ==> Propensity(home, draw, away) < draw
    ensures PropensityApplies(0.01, 0.98, 0.01) && Propensity(0.01, 0.98, 0.01) < 0.98
  {
    assert PropensityApplies(0.01, 0.98, 0.01);
  }
}

=== FILE: config.dfy ===
/** The fixed parameters of the methodology (`PROGOL_CONFIG`, the classifier's thresholds
    and the generator's defaults), as exact reals. */
module Config {
  import opened Tickets

  /** Matches on a Progol slip; the validator counts predictions per ticket with it. */
  const MatchCount: nat := 14

  /** Allowed number of draw picks per ticket (`EMPATES_MIN`, `EMPATES_MAX`). */
  const DrawsMin: nat := 4
  const DrawsMax: nat := 6

  /** Share caps for a single match: the first three matches are stricter. */
  const ConcentrationInitial: real := 0.60
  const ConcentrationGeneral: real := 0.70
  const InitialMatches: nat := 3

  /** Calibration weights for form, injuries and a decisive match. */
  const FormWeight: real := 0.15
  const InjuryWeight: real := 0.10
  const ContextWeight: real := 0.20
  /** The away probability is divided by the factor, never by less than this. */
  const FactorFloor: real := 0.1

  /** Draw-propensity rule: home and away closer than the gap, draw ahead of both. */
  const PropensityGap: real := 0.08
  const PropensityBoost: real := 0.06
  const PropensityCap: real := 0.95

  /** Classifier thresholds. */
  const AnchorThreshold: real := 0.60
  const DivisorLow: real := 0.40
  const DivisorHigh: real := 0.60
  const DrawThreshold: real := 0.30

  /** Draw probability a match needs to receive a draw during repair. */
  const FillThreshold: real := 0.20

  /** Chance of taking the second choice at a free match of a satellite pair, and of the
      extra satellite. */
  const PairFlipChance: real := 0.3
  const SingleFlipChance: real := 0.4

  /** Number of core tickets and size of the GRASP candidate pool. */
  const CoreCount: nat := 4
  const PoolSize: nat := 1000
  /** Variation levels a pool candidate draws from (`Math.floor(Math.random() * 5)`). */
  const PoolVariations: nat := 5

  /** Price of one ticket. */
  const TicketCost: nat := 15

  /** Historical band of the pooled share of each outcome (`RANGOS_HISTORICOS`). */
  function BandLow(o: Outcome): real
  {
    match o
    case L => 0.35
    case E => 0.25
    case V => 0.30
  }

  function BandHigh(o: Outcome): real
  {
    match o
    case L => 0.41
    case E => 0.33
    case V => 0.36
  }

  /** Historical share of each outcome (`DISTRIBUCION_HISTORICA`) and mean number of draws
      per ticket (`EMPATES_PROMEDIO`); the validator uses the bands and the draw limits only. */
  function Historical(o: Outcome): real
  {
    match o
    case L => 0.38
    case E => 0.29
    case V => 0.33
  }

  const DrawsAverage: real := 4.33

  /** The constants agree with each other: the historical shares add up to one and lie
      inside their bands, and the mean draw count lies between the limits. */
  lemma Coherent()
    ensures Historical(L) + Historical(E) + Historical(V) == 1.0
    ensures forall o :: BandLow(o) <= Historical(o) <= BandHigh(o)
    ensures DrawsMin as real <= DrawsAverage <= DrawsMax as real
  {
  }

  /** Concentration cap of match `m` (0-based). */
  function Cap(m: nat): real
  {
    if m < InitialMatches then ConcentrationInitial else ConcentrationGeneral
  }

  /** Optimizer settings and their defaults in the application. */
  datatype Settings = Settings(iterations: nat, initialTemperature: real, coolingRate: real, targetSize: nat)

  const Defaults: Settings := Settings(5000, 0.80, 0.995, 20)
}

=== FILE: diversity.dfy ===
/** Portfolio diversity (`calcularDiversidadPortafolio`): one minus the mean similarity
    over all unordered pairs of tickets, where a pair's similarity is one minus its Hamming
    distance over the fixed match count. */
module Diversity {
  import opened Tickets
  import opened Config

  /** Similarity of two tickets; the source divides by the constant 14, not by the
      tickets' length. */
  function Similarity(a: Picks, b: Picks): real
  {
    1.0 - (Hamming(a, b) as real) / (MatchCount as real)
  }

  /** Sum of the similarities of ticket `i` to the tickets `i + 1 .. k - 1`. */
  function RowSimilarity(ts: seq<Ticket>, i: nat, k: nat): real
    requires i < |ts| && k <= |ts|
  {
    if k <= i + 1 then 0.0 else RowSimilarity(ts, i, k - 1) + Similarity(ts[i].picks, ts[k - 1].picks)
  }

  /** Sum of the distances of ticket `i` to the tickets `i + 1 .. k - 1`. */
  function RowDistance(ts: seq<Ticket>, i: nat, k: nat): nat
    requires i < |ts| && k <= |ts|
  {
    if k <= i + 1 then 0 else RowDistance(ts, i, k - 1) + Hamming(ts[i].picks, ts[k - 1].picks)
  }

  /** Similarity summed over the pairs whose first ticket comes before `m`. */
  function SimilarityUpTo(ts: seq<Ticket>, m: nat): real
    requires m <= |ts|
  {
    if m == 0 then 0.0 else SimilarityUpTo(ts, m - 1) + RowSimilarity(ts, m - 1, |ts|)
  }

  /** Distance summed over the pairs whose first ticket comes before `m`. */
  function DistanceUpTo(ts: seq<Ticket>, m: nat): nat
    requires m <= |ts|
  {
    if m == 0 then 0 else DistanceUpTo(ts, m - 1) + RowDistance(ts, m - 1, |ts|)
  }

  /** Number of pairs whose first member comes before `m`, out of `n` items. */
  function ComparisonsUpTo(n: nat, m: nat): nat
    requires m <= n
  {
    if m == 0 then 0 else ComparisonsUpTo(n, m - 1) + (n - m)
  }

  /** Number of unordered pairs of `n` tickets: the source's comparison counter. */
  function Comparisons(n: nat): (c: nat)
    ensures 2 * c == n * (n - 1)
  {
    ComparisonsCount(n, n);
    ComparisonsUpTo(n, n)
  }

  /** Diversity as the source computes it; 1 for fewer than two tickets. */
  function Diversity(ts: seq<Ticket>): real
  {
    if |ts| < 2 then 1.0
    else if Comparisons(|ts|) > 0 then 1.0 - SimilarityUpTo(ts, |ts|) / (Comparisons(|ts|) as real)
    else 1.0
  }

  /** The comparison counter after `m` outer rounds. */
  lemma {:induction false} ComparisonsCount(n: nat, m: nat)
    requires m <= n
    ensures 2 * ComparisonsUpTo(n, m) == m * (2 * n - m - 1)
  {
    if m > 0 {
      ComparisonsCount(n, m - 1);
    }
  }

  /** A row's similarity is its comparison count less its distance over 14. */
  lemma {:induction false} RowSimilarityIsDistance(ts: seq<Ticket>, i: nat, k: nat)
    requires i < |ts| && k <= |ts|
    ensures RowSimilarity(ts, i, k)
         == (if k <= i + 1 then 0.0 else (k - i - 1) as real) - (RowDistance(ts, i, k) as real) / 14.0
  {
    if k > i + 1 {
      RowSimilarityIsDistance(ts, i, k - 1);
    }
  }

  /** Summed similarity is the number of comparisons less the summed distance over 14. */
  lemma {:induction false} SimilarityIsDistance(ts: seq<Ticket>, m: nat)
    requires m <= |ts|
    ensures SimilarityUpTo(ts, m) == (ComparisonsUpTo(|ts|, m) as real) - (DistanceUpTo(ts, m) as real) / 14.0
  {
    if m > 0 {
      SimilarityIsDistance(ts, m - 1);
      RowSimilarityIsDistance(ts, m - 1, |ts|);
    }
  }

  /** With at least two tickets, diversity is the mean pairwise distance as a fraction of
      the 14 matches. */
  lemma DiversityIsMeanDistance(ts: seq<Ticket>)
    requires |ts| >= 2
    ensures Diversity(ts) == (DistanceUpTo(ts, |ts|) as real) / (14.0 * (Comparisons(|ts|) as real))
  {
    var c := Comparisons(|ts|);
    assert c > 0 by {
      assert 2 * c == |ts| * (|ts| - 1);
      assert |ts| * (|ts| - 1) >= 2 * 1;
    }
    SimilarityIsDistance(ts, |ts|);
    MeanOfComplement(c as real, DistanceUpTo(ts, |ts|) as real);
  }

  lemma MeanOfComplement(c: real, d: real)
    requires c > 0.0
    ensures 1.0 - (c - d / 14.0) / c == d / (14.0 * c)
  {
    var q := d / (14.0 * c);
    assert q * (14.0 * c) == d;
    assert d / 14.0 == q * c;
    var x := c - d / 14.0;
    assert x == (1.0 - q) * c;
    DivideOut(x, 1.0 - q, c);
  }

  lemma DivideOut(x: real, a: real, c: real)
    requires c > 0.0 && x == a * c
    ensures x / c == a
  {
  }

  /** Row distances of tickets with at most 14 picks stay within 14 per comparison. */
  lemma {:induction false} RowDistanceBound(ts: seq<Ticket>, i: nat, k: nat)
    requires i < |ts| && k <= |ts|
    requires forall t :: 0 <= t < |ts| ==> |ts[t].picks| <= MatchCount
    ensures RowDistance(ts, i, k) <= 14 * (if k <= i + 1 then 0 else k - i - 1)
  {
    if k > i + 1 {
      RowDistanceBound(ts, i, k - 1);
    }
  }

  lemma {:induction false} DistanceBound(ts: seq<Ticket>, m: nat)
    requires m <= |ts|
    requires forall t :: 0 <= t < |ts| ==> |ts[t].picks| <= MatchCount
    ensures DistanceUpTo(ts, m) <= 14 * ComparisonsUpTo(|ts|, m)
  {
    if m > 0 {
      DistanceBound(ts, m - 1);
      RowDistanceBound(ts, m - 1, |ts|);
    }
  }

  /** For tickets of at most 14 picks, diversity lies in [0, 1]. */
  lemma DiversityBounds(ts: seq<Ticket>)
    requires forall t :: 0 <= t < |ts| ==> |ts[t].picks| <= MatchCount
    ensures 0.0 <= Diversity(ts) <= 1.0
  {
    if |ts| >= 2 {
      DiversityIsMeanDistance(ts);
      DistanceBound(ts, |ts|);
      FractionBounds(DistanceUpTo(ts, |ts|) as real, Comparisons(|ts|) as real);
    }
  }

  lemma FractionBounds(d: real, c: real)
    requires c > 0.0 && 0.0 <= d <= 14.0 * c
    ensures 0.0 <= d / (14.0 * c) <= 1.0
  {
  }

  /** Row distances vanish when every ticket carries the same picks. */
  lemma {:induction false} RowDistanceOfClones(ts: seq<Ticket>, i: nat, k: nat)
    requires i < |ts| && k <= |ts|
    requires forall t :: 0 <= t < |ts| ==> ts[t].picks == ts[0].picks
    ensures RowDistance(ts, i, k) == 0
  {
    if k > i + 1 {
      RowDistanceOfClones(ts, i, k - 1);
      HammingZeroIffEqual(ts[i].picks, ts[k - 1].picks);
    }
  }

  lemma {:induction false} DistanceOfClones(ts: seq<Ticket>, m: nat)
    requires m <= |ts|
    requires forall t :: 0 <= t < |ts| ==> ts[t].picks == ts[0].picks
    ensures DistanceUpTo(ts, m) == 0
  {
    if m > 0 {
      DistanceOfClones(ts, m - 1);
      RowDistanceOfClones(ts, m - 1, |ts|);
    }
  }

  /** Two or more copies of one ticket have no diversity at all. */
  lemma ClonesHaveNoDiversity(ts: seq<Ticket>)
    requires |ts| >= 2 && forall t :: 0 <= t < |ts| ==> ts[t].picks == ts[0].picks
    ensures Diversity(ts) == 0.0
  {
    DiversityIsMeanDistance(ts);
    DistanceOfClones(ts, |ts|);
  }

  /** The source's nested loops; the accumulated similarity and counter agree with the
      pairwise sums at every step, so the result is `Diversity`. */
  method ComputeDiversity(ts: seq<Ticket>) returns (d: real)
    ensures d == Diversity(ts)
    ensures |ts| >= 2 ==> d == (DistanceUpTo(ts, |ts|) as real) / (14.0 * (Comparisons(|ts|) as real))
  {
    if |ts| < 2 {
      return 1.0;
    }
    var similarity, comparisons := 0.0, 0;
    var i := 0;
    while i < |ts|
      invariant 0 <= i <= |ts|
      invariant similarity == SimilarityUpTo(ts, i)
      invariant comparisons == ComparisonsUpTo(|ts|, i)
    {
      var j := i + 1;
      var row := similarity;
      while j < |ts|
        invariant i + 1 <= j <= |ts|
        invariant similarity == row + RowSimilarity(ts, i, j)
        invariant comparisons == ComparisonsUpTo(|ts|, i) + (j - i - 1)
      {
        similarity := similarity + Similarity(ts[i].picks, ts[j].picks);
        comparisons := comparisons + 1;
        j := j + 1;
      }
      i := i + 1;
    }
    d := if comparisons > 0 then 1.0 - similarity / (comparisons as real) else 1.0;
    DiversityIsMeanDistance(ts);
  }
}

=== FILE: draw_repair.dfy ===
/** Draw-count repair (`ajustarEmpates`): a ticket with fewer than four draws receives
    draws at the matches most likely to be drawn, a ticket with more than six gives up
    the draws least likely to happen, each in favour of that match's suggested outcome. */
module DrawRepair {
  import opened Numeric
  import opened Tickets
  import opened Config
  import opened Classifier
  import Ranking

  /** Position `i` may receive a draw: it is not a draw yet and the match's draw
      probability is above 0.20. Anchors are not excluded. */
  predicate Fillable(q: Picks, ms: seq<Classified>, i: nat)
    requires |q| <= |ms| && i < |q|
  {
    q[i] != E && ms[i].probs.draw > FillThreshold
  }

  /** The fillable positions, in increasing order. */
  function FillCandidates(q: Picks, ms: seq<Classified>): (c: seq<nat>)
    requires |q| <= |ms|
    ensures Ranking.Increasing(c) && Ranking.Within(c, |q|)
    ensures forall i :: i in c <==> 0 <= i < |q| && Fillable(q, ms, i)
    ensures (forall i :: 0 <= i < |q| ==> !Fillable(q, ms, i)) ==> c == []
  {
    if |q| == 0 then []
    else
      var n := |q| - 1;
      assert forall i :: 0 <= i < n ==> Fillable(q[..n], ms, i) == Fillable(q, ms, i);
      FillCandidates(q[..n], ms) + (if Fillable(q, ms, n) then [n] else [])
  }

  /** The positions holding a draw, in increasing order: one per draw. */
  function DrawPositions(q: Picks): (c: seq<nat>)
    ensures Ranking.Increasing(c) && Ranking.Within(c, |q|)
    ensures forall i :: i in c <==> 0 <= i < |q| && q[i] == E
    ensures |c| == Draws(q)
  {
    if |q| == 0 then []
    else
      var n := |q| - 1;
      DrawPositions(q[..n]) + (if q[n] == E then [n] else [])
  }

  /** Draw probabilities by position: the key of the largest-first sort. */
  function DrawKeys(ms: seq<Classified>): (k: seq<real>)
    ensures |k| == |ms| && forall i :: 0 <= i < |ms| ==> k[i] == ms[i].probs.draw
  {
    seq(|ms|, i requires 0 <= i < |ms| => ms[i].probs.draw)
  }

  /** Negated draw probabilities: sorting by them largest first is the source's
      smallest-first sort. */
  function LowDrawKeys(ms: seq<Classified>): (k: seq<real>)
    ensures |k| == |ms| && forall i :: 0 <= i < |ms| ==> k[i] == -ms[i].probs.draw
  {
    seq(|ms|, i requires 0 <= i < |ms| => -ms[i].probs.draw)
  }

  /** The positions that receive a draw: the first `min(4 - draws, #candidates)`
      candidates by draw probability, largest first. */
  function FillPlan(q: Picks, ms: seq<Classified>): seq<nat>
    requires |q| <= |ms| && Draws(q) < DrawsMin
  {
    var c := FillCandidates(q, ms);
    Ranking.Sort(c, DrawKeys(ms))[..Min(DrawsMin - Draws(q), |c|)]
  }

  /** The draw positions that are reverted: the first `draws - 6` by draw probability,
      smallest first. */
  function TrimPlan(q: Picks, ms: seq<Classified>): seq<nat>
    requires |q| <= |ms| && Draws(q) > DrawsMax
  {
    var c := DrawPositions(q);
    Ranking.Sort(c, LowDrawKeys(ms))[..Min(Draws(q) - DrawsMax, |c|)]
  }

  /** A draw at every position. */
  function AllDraws(n: nat): (v: Picks)
    ensures |v| == n && forall i :: 0 <= i < n ==> v[i] == E
  {
    seq(n, _ => E)
  }

  /** The suggested outcome of every match. */
  function Suggestions(ms: seq<Classified>): (v: Picks)
    ensures |v| == |ms| && forall i :: 0 <= i < |ms| ==> v[i] == ms[i].suggested
  {
    seq(|ms|, i requires 0 <= i < |ms| => ms[i].suggested)
  }

  /** The repaired ticket (`ajustarEmpates`); a fresh sequence of the same length. */
  function AdjustDraws(q: Picks, ms: seq<Classified>): (r: Picks)
    requires |q| <= |ms|
    ensures |r| == |q|
    ensures DrawsMin <= Draws(q) <= DrawsMax ==> r == q
  {
    var n := Draws(q);
    if n < DrawsMin then
      FillPlanFacts(q, ms);
      Overwrite(q, FillPlan(q, ms), AllDraws(|q|))
    else if n > DrawsMax then
      TrimPlanFacts(q, ms);
      Overwrite(q, TrimPlan(q, ms), Suggestions(ms[..|q|]))
    else q
  }

  lemma FillPlanFacts(q: Picks, ms: seq<Classified>)
    requires |q| <= |ms| && Draws(q) < DrawsMin
    ensures var plan := FillPlan(q, ms);
      && Ranking.Within(plan, |q|) && Ranking.Distinct(plan)
      && |plan| == Min(DrawsMin - Draws(q), |FillCandidates(q, ms)|)
      && (forall a :: 0 <= a < |plan| ==> Fillable(q, ms, plan[a]))
      && (|FillCandidates(q, ms)| <= DrawsMin - Draws(q) ==>
            forall i :: 0 <= i < |q| && Fillable(q, ms, i) ==> i in plan)
      && (forall i, j :: i in plan && 0 <= j < |q| && Fillable(q, ms, j) && j !in plan ==>
            ms[i].probs.draw > ms[j].probs.draw || (ms[i].probs.draw == ms[j].probs.draw && i < j))
  {
    var c := FillCandidates(q, ms);
    var key := DrawKeys(ms);
    var s := Ranking.Sort(c, key);
    var k := Min(DrawsMin - Draws(q), |c|);
    var plan := s[..k];
    assert plan == FillPlan(q, ms);
    Ranking.RankedDistinct(s, key);
    forall a | 0 <= a < |plan|
      ensures plan[a] < |q| && Fillable(q, ms, plan[a])
    {
      assert plan[a] == s[a] && s[a] in s;
    }
    if |c| <= DrawsMin - Draws(q) {
      assert plan == s;
    }
    forall i, j | i in plan && 0 <= j < |q| && Fillable(q, ms, j) && j !in plan
      ensures ms[i].probs.draw > ms[j].probs.draw || (ms[i].probs.draw == ms[j].probs.draw && i < j)
    {
      assert j in c;
      Ranking.LeadersPrecede(s, key, k, i, j);
    }
  }

  lemma TrimPlanFacts(q: Picks, ms: seq<Classified>)
    requires |q| <= |ms| && Draws(q) > DrawsMax
    ensures var plan := TrimPlan(q, ms);
      && Ranking.Within(plan, |q|) && Ranking.Distinct(plan)
      && |plan| == Draws(q) - DrawsMax
      && (forall a :: 0 <= a < |plan| ==> q[plan[a]] == E)
      && (forall i, j :: i in plan && 0 <= j < |q| && q[j] == E && j !in plan ==>
            ms[i].probs.draw < ms[j].probs.draw || (ms[i].probs.draw == ms[j].probs.draw && i < j))
  {
    var c := DrawPositions(q);
    var key := LowDrawKeys(ms);
    var s := Ranking.Sort(c, key);
    var k := Min(Draws(q) - DrawsMax, |c|);
    var plan := s[..k];
    assert plan == TrimPlan(q, ms);
    Ranking.RankedDistinct(s, key);
    forall a | 0 <= a < |plan|
      ensures plan[a] < |q| && q[plan[a]] == E
    {
      assert plan[a] == s[a] && s[a] in s;
    }
    forall i, j | i in plan && 0 <= j < |q| && q[j] == E && j !in plan
      ensures ms[i].probs.draw < ms[j].probs.draw || (ms[i].probs.draw == ms[j].probs.draw && i < j)
    {
      assert j in c;
      Ranking.LeadersPrecede(s, key, k, i, j);
    }
  }

  /** Drawing at distinct non-draw positions adds one draw per position. */
  lemma {:induction false} SetDrawsCount(q: Picks, idx: seq<nat>, v: Picks)
    requires |v| == |q| && Ranking.Within(idx, |q|) && Ranking.Distinct(idx)
    requires forall a :: 0 <= a < |idx| ==> q[idx[a]] != E && v[idx[a]] == E
    ensures Draws(Overwrite(q, idx, v)) == Draws(q) + |idx|
    decreases |idx|
  {
    if |idx| > 0 {
      var q' := q[idx[0] := v[idx[0]]];
      CountUpdate(q, idx[0], v[idx[0]], E);
      SetDrawsCount(q', idx[1..], v);
    }
  }

  /** Overwriting distinct draw positions loses at most one draw per position and never
      gains one; exactly one when nothing written is a draw. */
  lemma {:induction false} RevertCount(q: Picks, idx: seq<nat>, v: Picks)
    requires |v| == |q| && Ranking.Within(idx, |q|) && Ranking.Distinct(idx)
    requires forall a :: 0 <= a < |idx| ==> q[idx[a]] == E
    ensures Draws(q) - |idx| <= Draws(Overwrite(q, idx, v)) <= Draws(q)
    ensures (forall a :: 0 <= a < |idx| ==> v[idx[a]] != E) ==>
      Draws(Overwrite(q, idx, v)) == Draws(q) - |idx|
    decreases |idx|
  {
    if |idx| > 0 {
      var q' := q[idx[0] := v[idx[0]]];
      CountUpdate(q, idx[0], v[idx[0]], E);
      RevertCount(q', idx[1..], v);
    }
  }

  /** Below four draws the repair only turns fillable positions into draws, exactly
      `min(4 - draws, #fillable)` of them, choosing the largest draw probabilities first
      (the earlier match among equals). */
  lemma FillRepair(q: Picks, ms: seq<Classified>)
    requires |q| <= |ms| && Draws(q) < DrawsMin
    ensures var r := AdjustDraws(q, ms);
      && (forall i :: 0 <= i < |q| && r[i] != q[i] ==> Fillable(q, ms, i) && r[i] == E)
      && Draws(r) == Draws(q) + Min(DrawsMin - Draws(q), |FillCandidates(q, ms)|)
      && Hamming(q, r) == Min(DrawsMin - Draws(q), |FillCandidates(q, ms)|)
      && (forall i, j :: 0 <= i < |q| && 0 <= j < |q| && r[i] != q[i] && Fillable(q, ms, j) && r[j] == q[j] ==>
            ms[i].probs.draw > ms[j].probs.draw || (ms[i].probs.draw == ms[j].probs.draw && i < j))
  {
    var r := AdjustDraws(q, ms);
    var plan := FillPlan(q, ms);
    FillPlanFacts(q, ms);
    assert r == Overwrite(q, plan, AllDraws(|q|));
    SetDrawsCount(q, plan, AllDraws(|q|));
    HammingCountsDrawChanges(q, r);
    forall i | 0 <= i < |q| && r[i] != q[i]
      ensures Fillable(q, ms, i) && r[i] == E
    {
      var a :| 0 <= a < |plan| && plan[a] == i;
    }
  }

  /** A ticket below four draws with no fillable position comes back unchanged: the
      repair does not guarantee the band. */
  lemma FillMayFallShort(q: Picks, ms: seq<Classified>)
    requires |q| <= |ms| && Draws(q) < DrawsMin
    requires forall i :: 0 <= i < |q| ==> !Fillable(q, ms, i)
    ensures AdjustDraws(q, ms) == q && Draws(AdjustDraws(q, ms)) < DrawsMin
  {
    assert FillPlan(q, ms) == [];
  }

  /** Above six draws a position changes exactly when it is one of the `draws - 6`
      planned draws and its match suggests something other than a draw, and then it
      takes that suggestion. */
  lemma TrimChanges(q: Picks, ms: seq<Classified>)
    requires |q| <= |ms| && Draws(q) > DrawsMax
    ensures var r := AdjustDraws(q, ms);
      && (forall i :: 0 <= i < |q| && r[i] != q[i] ==> q[i] == E && r[i] == ms[i].suggested)
      && (forall i :: 0 <= i < |q| ==> (r[i] != q[i] <==> i in TrimPlan(q, ms) && ms[i].suggested != E))
  {
    var r := AdjustDraws(q, ms);
    var plan := TrimPlan(q, ms);
    TrimPlanFacts(q, ms);
    assert r == Overwrite(q, plan, Suggestions(ms[..|q|]));
    forall i | 0 <= i < |q| && i in plan
      ensures q[i] == E && r[i] == ms[i].suggested
    {
      var a :| 0 <= a < |plan| && plan[a] == i;
    }
  }

  /** Above six draws the repair keeps at least six and never adds one; exactly six when
      no planned match suggests a draw. */
  lemma TrimCount(q: Picks, ms: seq<Classified>)
    requires |q| <= |ms| && Draws(q) > DrawsMax
    ensures var r := AdjustDraws(q, ms);
      && DrawsMax <= Draws(r) <= Draws(q)
      && ((forall i :: 0 <= i < |q| && i in TrimPlan(q, ms) ==> ms[i].suggested != E) ==> Draws(r) == DrawsMax)
  {
    var plan := TrimPlan(q, ms);
    var v := Suggestions(ms[..|q|]);
    TrimPlanFacts(q, ms);
    assert AdjustDraws(q, ms) == Overwrite(q, plan, v);
    RevertCount(q, plan, v);
    if forall i :: 0 <= i < |q| && i in plan ==> ms[i].suggested != E {
      forall a | 0 <= a < |plan|
        ensures v[plan[a]] != E
      {
        assert plan[a] in plan;
      }
    }
  }

  /** Above six draws the repair only turns draws into the match's suggested outcome,
      exactly at the planned draws whose match does not suggest one; it leaves at least
      six draws, never more than before, exactly six when no planned match suggests a
      draw, and the changed positions are the draws lost. */
  lemma TrimRepair(q: Picks, ms: seq<Classified>)
    requires |q| <= |ms| && Draws(q) > DrawsMax
    ensures var r := AdjustDraws(q, ms);
      && (forall i :: 0 <= i < |q| && r[i] != q[i] ==> q[i] == E && r[i] == ms[i].suggested)
      && (forall i :: 0 <= i < |q| ==> (r[i] != q[i] <==> i in TrimPlan(q, ms) && ms[i].suggested != E))
      && DrawsMax <= Draws(r) <= Draws(q)
      && Hamming(q, r) == Draws(q) - Draws(r)
      && ((forall i :: 0 <= i < |q| && i in TrimPlan(q, ms) ==> ms[i].suggested != E) ==> Draws(r) == DrawsMax)
  {
    TrimChanges(q, ms);
    TrimCount(q, ms);
    HammingCountsDrawChanges(q, AdjustDraws(q, ms));
  }

  /** A draw is given up in favour of the match's suggested outcome, which may be a draw
      itself: a ticket whose draws all sit at matches that suggest one comes back
      unchanged, however many draws it holds. */
  lemma TrimKeepsSuggestedDraws(q: Picks, ms: seq<Classified>)
    requires |q| <= |ms| && Draws(q) > DrawsMax
    requires forall i :: 0 <= i < |q| && q[i] == E ==> ms[i].suggested == E
    ensures AdjustDraws(q, ms) == q && Draws(AdjustDraws(q, ms)) > DrawsMax
  {
    TrimRepair(q, ms);
  }

  /** The draws given up are those least likely to happen (the earlier match among
      equals): a reverted match never has a larger draw probability than a draw that
      stays although its match suggests something else. */
  lemma TrimOrder(q: Picks, ms: seq<Classified>)
    requires |q| <= |ms| && Draws(q) > DrawsMax
    ensures var r := AdjustDraws(q, ms);
      forall i, j ::
        0 <= i < |q| && 0 <= j < |q| && r[i] != q[i] && q[j] == E && r[j] == E && ms[j].suggested != E ==>
        ms[i].probs.draw < ms[j].probs.draw || (ms[i].probs.draw == ms[j].probs.draw && i < j)
  {
    TrimPlanFacts(q, ms);
    assert AdjustDraws(q, ms) == Overwrite(q, TrimPlan(q, ms), Suggestions(ms[..|q|]));
  }


  /** The repair never breaks a bound the ticket already meets, and leaves a ticket
      with enough fillable positions inside the band. */
  lemma RepairKeepsBounds(q: Picks, ms: seq<Classified>)
    requires |q| <= |ms|
    ensures var r := AdjustDraws(q, ms);
      && (Draws(q) >= DrawsMin ==> Draws(r) >= DrawsMin)
      && (Draws(q) <= DrawsMax ==> Draws(r) <= DrawsMax)
      && (Draws(q) + |FillCandidates(q, ms)| >= DrawsMin ==> Draws(r) >= DrawsMin)
  {
    if Draws(q) < DrawsMin {
      FillRepair(q, ms);
    } else if Draws(q) > DrawsMax {
      TrimRepair(q, ms);
    }
  }

  /** Repairing a repaired ticket that had at most six draws changes nothing. A trimmed
      ticket settles too (the planned draws left in place all suggest a draw and come
      first again in the same stable order), but that case is not proved here. */
  lemma RepairSettles(q: Picks, ms: seq<Classified>)
    requires |q| <= |ms| && Draws(q) <= DrawsMax
    ensures AdjustDraws(AdjustDraws(q, ms), ms) == AdjustDraws(q, ms)
  {
    var r := AdjustDraws(q, ms);
    if Draws(q) < DrawsMin {
      FillRepair(q, ms);
      FillPlanFacts(q, ms);
      if Draws(r) < DrawsMin {
        forall i | 0 <= i < |r|
          ensures !Fillable(r, ms, i)
        {
          if Fillable(q, ms, i) {
            assert i in FillPlan(q, ms);
          }
        }
        FillMayFallShort(r, ms);
      }
    }
  }
}

=== FILE: generator.dfy ===
/** Ticket generation (`PortfolioGenerator`): the base ticket, the second choice of a
    match, the random variation of the core tickets, the four core tickets, the pairs of
    satellites and the extra satellite. Every `Math.random()` the source draws is an
    oracle real in [0, 1) passed in by the caller. */
module Generator {
  import opened Numeric
  import opened Tickets
  import opened Config
  import opened Classifier
  import opened DrawRepair
  import Ranking

  /** The second most likely outcome (`getResultadoAlternativo`): position 1 of the
      stable sort of L, E, V by probability, largest first. */
  function Alternative(p: Triple): (o: Outcome)
    ensures Position(p, o) == 1
    ensures p.Min() <= p.At(o) <= p.Max()
    ensures p.At(o) == p.Sum() - p.Max() - p.Min()
  {
    var s := Order(p);
    OutcomeAt(s[1])
  }

  /** The second choice is the suggested outcome exactly when two outcomes, but not all
      three, share the largest probability; in particular they differ whenever the three
      probabilities are pairwise distinct. */
  lemma AlternativeMatchesSuggested(p: Triple)
    ensures Alternative(p) == Suggested(p) <==> p.TopTie() && !(p.home == p.draw == p.away)
    ensures p.home != p.draw && p.draw != p.away && p.home != p.away ==> Alternative(p) != Suggested(p)
  {
    var a := Alternative(p);
    var o := Suggested(p);
    assert Position(p, a) == 1;
  }

  /** The confidence of a match is the margin of its suggested outcome over its second
      choice whenever these differ. */
  lemma ConfidenceIsMargin(p: Triple)
    requires Alternative(p) != Suggested(p)
    ensures Confidence(p) == p.At(Suggested(p)) - p.At(Alternative(p))
  {
  }

  /** The second choice of every match. */
  function Alternatives(ms: seq<Classified>): (v: Picks)
    ensures |v| == |ms| && forall i :: 0 <= i < |ms| ==> v[i] == Alternative(ms[i].probs)
  {
    seq(|ms|, i requires 0 <= i < |ms| => Alternative(ms[i].probs))
  }

  /** The rule of the base ticket (`crearQuinielaBase`), pick by pick: an anchor takes its
      suggested outcome, a draw-leaning match a draw while fewer than six draws precede
      it, and every other match its suggested outcome. */
  predicate BaseRule(ms: seq<Classified>, q: Picks)
  {
    && |q| == |ms|
    && (forall i :: 0 <= i < |ms| && ms[i].category != TendenciaEmpate ==> q[i] == ms[i].suggested)
    && (forall i :: 0 <= i < |ms| && ms[i].category == TendenciaEmpate ==>
         q[i] == if Draws(q[..i]) < DrawsMax then E else ms[i].suggested)
  }

  /** The pick the rule gives the match `c` after the picks `prefix`. */
  function BasePick(prefix: Picks, c: Classified): Outcome
  {
    if c.category == Ancla then c.suggested
    else if c.category == TendenciaEmpate && Draws(prefix) < DrawsMax then E
    else c.suggested
  }

  /** The base ticket, built left to right as the source's loop does. */
  function Base(ms: seq<Classified>): (q: Picks)
    ensures BaseRule(ms, q)
  {
    if |ms| == 0 then []
    else
      var n := |ms| - 1;
      var prefix := Base(ms[..n]);
      BaseExtend(ms, prefix);
      prefix + [BasePick(prefix, ms[n])]
  }

  /** Appending the rule's pick for the next match extends a ticket that follows the rule. */
  lemma BaseExtend(ms: seq<Classified>, prefix: Picks)
    requires |ms| > 0 && BaseRule(ms[..|ms| - 1], prefix)
    ensures BaseRule(ms, prefix + [BasePick(prefix, ms[|ms| - 1])])
  {
    var n := |ms| - 1;
    var q := prefix + [BasePick(prefix, ms[n])];
    forall i | 0 <= i < |ms|
      ensures ms[i].category != TendenciaEmpate ==> q[i] == ms[i].suggested
      ensures ms[i].category == TendenciaEmpate ==> q[i] == if Draws(q[..i]) < DrawsMax then E else ms[i].suggested
    {
      if i < n {
        assert q[..i] == prefix[..i] && q[i] == prefix[i] && ms[i] == ms[..n][i];
      } else {
        assert q[..n] == prefix;
      }
    }
  }

  /** Number of draw-leaning matches. */
  function DrawLeaning(ms: seq<Classified>): (k: nat)
    ensures k <= |ms|
  {
    if |ms| == 0 then 0
    else DrawLeaning(ms[..|ms| - 1]) + (if ms[|ms| - 1].category == TendenciaEmpate then 1 else 0)
  }

  /** The base ticket holds a draw for every draw-leaning match, up to six. */
  lemma {:induction false} BaseDrawsAtLeast(ms: seq<Classified>)
    ensures Draws(Base(ms)) >= Min(DrawsMax, DrawLeaning(ms))
  {
    if |ms| > 0 {
      BaseDrawsAtLeast(ms[..|ms| - 1]);
      BaseDrawsStep(ms);
    }
  }

  /** The inductive step of `BaseDrawsAtLeast`. */
  lemma BaseDrawsStep(ms: seq<Classified>)
    requires |ms| > 0
    requires Draws(Base(ms[..|ms| - 1])) >= Min(DrawsMax, DrawLeaning(ms[..|ms| - 1]))
    ensures Draws(Base(ms)) >= Min(DrawsMax, DrawLeaning(ms))
  {
    var n := |ms| - 1;
    var prefix := Base(ms[..n]);
    var pick := BasePick(prefix, ms[n]);
    assert Base(ms) == prefix + [pick];
    CountAppend(prefix, [pick], E);
    var lean := ms[n].category == TendenciaEmpate;
    assert lean && Draws(prefix) < DrawsMax ==> Count([pick], E) == 1;
    AtLeastStep(Draws(Base(ms)), Draws(prefix), DrawLeaning(ms), DrawLeaning(ms[..n]), lean);
  }

  lemma AtLeastStep(d: nat, d': nat, l: nat, l': nat, lean: bool)
    requires d' >= Min(DrawsMax, l') && d >= d'
    requires lean && d' < DrawsMax ==> d == d' + 1
    requires l == l' + if lean then 1 else 0
    ensures d >= Min(DrawsMax, l)
  {
  }

  /** The cap of six draws in the base ticket only decides which draw-leaning matches
      are forced to a draw: a draw-leaning match whose suggested outcome is a draw still
      gets one past the cap, so a slate of such matches yields a ticket of draws only. */
  lemma BaseCapDoesNotBound(ms: seq<Classified>)
    requires forall i :: 0 <= i < |ms| ==> ms[i].category == TendenciaEmpate && ms[i].suggested == E
    ensures Base(ms) == AllDraws(|ms|)
  {
  }

  /** Consistent draw-leaning records suggest a draw unless the draw ties the away
      win, so the previous lemma applies to every such slate without such a tie. */
  lemma DrawLeaningSuggestsDraw(c: Classified)
    requires Consistent(c) && c.category == TendenciaEmpate && c.probs.draw != c.probs.away
    ensures c.suggested == E
  {
  }

  /** The positions of the matches that are not anchors, in increasing order. */
  function NonAnchors(ms: seq<Classified>): (c: seq<nat>)
    ensures Ranking.Increasing(c) && Ranking.Within(c, |ms|)
    ensures forall i :: i in c <==> 0 <= i < |ms| && ms[i].category != Ancla
  {
    if |ms| == 0 then []
    else
      var n := |ms| - 1;
      NonAnchors(ms[..n]) + (if ms[n].category != Ancla then [n] else [])
  }

  /** The positions of the Divisor matches, in increasing order. */
  function Divisors(ms: seq<Classified>): (c: seq<nat>)
    ensures Ranking.Increasing(c) && Ranking.Within(c, |ms|)
    ensures forall i :: i in c <==> 0 <= i < |ms| && ms[i].category == Divisor
  {
    if |ms| == 0 then []
    else
      var n := |ms| - 1;
      Divisors(ms[..n]) + (if ms[n].category == Divisor then [n] else [])
  }

  /** `shuffleArray`, the Fisher-Yates shuffle: for `i` from the last position down to 1,
      swap position `i` with position `floor(us[i] * (i + 1))`; `us[i]` is the random
      number drawn at step `i` (`us[0]` is not used). */
  function Shuffle(a: seq<nat>, us: seq<real>): (r: seq<nat>)
    requires |us| == |a| && Units(us)
    ensures |r| == |a| && multiset(r) == multiset(a)
    ensures Ranking.Distinct(a) ==> Ranking.Distinct(r)
  {
    if |a| == 0 then a else ShuffleDown(a, |a| - 1, us)
  }

  function ShuffleDown(s: seq<nat>, i: nat, us: seq<real>): (r: seq<nat>)
    requires i < |s| && |us| == |s| && Units(us)
    ensures |r| == |s| && multiset(r) == multiset(s)
    ensures Ranking.Distinct(s) ==> Ranking.Distinct(r)
    decreases i
  {
    if i == 0 then s
    else
      var j := ScaledIndex(us[i], i + 1);
      var t := s[i := s[j]][j := s[i]];
      SwapFacts(s, i, j);
      ShuffleDown(t, i - 1, us)
  }

  /** Swapping two entries permutes a list and keeps it free of repeats. */
  lemma SwapFacts(s: seq<nat>, i: nat, j: nat)
    requires i < |s| && j < |s|
    ensures multiset(s[i := s[j]][j := s[i]]) == multiset(s)
    ensures Ranking.Distinct(s) ==> Ranking.Distinct(s[i := s[j]][j := s[i]])
  {
    var t := s[i := s[j]][j := s[i]];
    if Ranking.Distinct(s) {
      forall a, b | 0 <= a < b < |t|
        ensures t[a] != t[b]
      {
        var a' := if a == i then j else if a == j then i else a;
        var b' := if b == i then j else if b == j then i else b;
        assert t[a] == s[a'] && t[b] == s[b'] && a' != b';
      }
    }
  }

  /** A shuffle keeps exactly the entries it was given. */
  lemma ShuffleSameEntries(a: seq<nat>, us: seq<real>)
    requires |us| == |a| && Units(us)
    ensures forall x :: x in Shuffle(a, us) <==> x in a
  {
    Ranking.SameElements(Shuffle(a, us), a);
  }

  /** The positions `aplicarVariacion` changes: the first `min(1 + variation, #non-anchors)`
      non-anchor positions after shuffling them. */
  function VariationPlan(ms: seq<Classified>, variation: nat, us: seq<real>): (plan: seq<nat>)
    requires |us| == |NonAnchors(ms)| && Units(us)
    ensures |plan| == Min(1 + variation, |NonAnchors(ms)|)
    ensures Ranking.Distinct(plan) && Ranking.Within(plan, |ms|)
    ensures forall i :: i in plan ==> i < |ms| && ms[i].category != Ancla
  {
    var c := NonAnchors(ms);
    var s := Shuffle(c, us);
    ShuffleSameEntries(c, us);
    var plan := s[..Min(1 + variation, |c|)];
    forall a | 0 <= a < |plan|
      ensures plan[a] in c
    {
      assert plan[a] == s[a] && s[a] in s;
    }
    plan
  }

  /** `aplicarVariacion`: the second choice at the planned positions. */
  function ApplyVariation(q: Picks, ms: seq<Classified>, variation: nat, us: seq<real>): (r: Picks)
    requires |q| == |ms|
    requires |us| == |NonAnchors(ms)| && Units(us)
    ensures |r| == |q|
  {
    Overwrite(q, VariationPlan(ms, variation, us), Alternatives(ms))
  }

  /** A variation keeps every anchor and otherwise only installs second choices, at no
      more than `1 + variation` positions; it changes exactly that many positions when
      the planned positions' picks all differ from their second choices. */
  lemma VariationFrame(q: Picks, ms: seq<Classified>, variation: nat, us: seq<real>)
    requires |q| == |ms|
    requires |us| == |NonAnchors(ms)| && Units(us)
    ensures var r := ApplyVariation(q, ms, variation, us);
      && (forall i :: 0 <= i < |q| && ms[i].category == Ancla ==> r[i] == q[i])
      && (forall i :: 0 <= i < |q| && r[i] != q[i] ==> r[i] == Alternative(ms[i].probs))
      && Hamming(q, r) <= Min(1 + variation, |NonAnchors(ms)|)
      && ((forall i :: 0 <= i < |q| && ms[i].category != Ancla ==> q[i] != Alternative(ms[i].probs)) ==>
            Hamming(q, r) == Min(1 + variation, |NonAnchors(ms)|))
  {
    var plan := VariationPlan(ms, variation, us);
    var r := ApplyVariation(q, ms, variation, us);
    OverwriteDistance(q, plan, Alternatives(ms));
  }

  /** Overwriting distinct positions changes at most one pick per position, and exactly
      one when every written pick is new. */
  lemma {:induction false} OverwriteDistance(q: Picks, idx: seq<nat>, v: Picks)
    requires |v| == |q| && Ranking.Within(idx, |q|) && Ranking.Distinct(idx)
    ensures Hamming(q, Overwrite(q, idx, v)) <= |idx|
    ensures (forall a :: 0 <= a < |idx| ==> v[idx[a]] != q[idx[a]]) ==>
      Hamming(q, Overwrite(q, idx, v)) == |idx|
    decreases |idx|
  {
    if |idx| > 0 {
      var i := idx[0];
      var q' := q[i := v[i]];
      OverwriteDistance(q', idx[1..], v);
      var r := Overwrite(q', idx[1..], v);
      assert r == Overwrite(q, idx, v);
      assert i !in idx[1..] by {
        forall a | 0 <= a < |idx| - 1
          ensures idx[1..][a] != i
        {
          assert idx[1..][a] == idx[a + 1];
        }
      }
      HammingSplit(q, q', r, i);
      if forall a :: 0 <= a < |idx| ==> v[idx[a]] != q[idx[a]] {
        forall a | 0 <= a < |idx| - 1
          ensures v[idx[1..][a]] != q'[idx[1..][a]]
        {
          assert idx[1..][a] == idx[a + 1] != i;
        }
      }
    } else {
      HammingZeroIffEqual(q, q);
    }
  }

  /** Moving through a ticket that differs from `q` only at `i`, and then through one that
      keeps position `i`, adds the distance at `i` to the rest. */
  lemma HammingSplit(q: Picks, q': Picks, r: Picks, i: nat)
    requires |q'| == |q| && |r| == |q| && i < |q|
    requires forall k :: 0 <= k < |q| && k != i ==> q'[k] == q[k]
    requires r[i] == q'[i]
    ensures Hamming(q, r) == Hamming(q', r) + (if q'[i] != q[i] then 1 else 0)
  {
    HammingDecompose(q, q', r, i, |q|);
    assert q[..|q|] == q && q'[..|q|] == q';
  }

  lemma {:induction false} HammingDecompose(q: Picks, q': Picks, r: Picks, i: nat, n: nat)
    requires |q'| == |q| && |r| == |q| && i < |q| && n <= |q|
    requires forall k :: 0 <= k < |q| && k != i ==> q'[k] == q[k]
    requires r[i] == q'[i]
    ensures Hamming(q[..n], r) == Hamming(q'[..n], r) + (if i < n && q'[i] != q[i] then 1 else 0)
  {
    if n > 0 {
      HammingDecompose(q, q', r, i, n - 1);
      assert q[..n][..n - 1] == q[..n - 1] && q'[..n][..n - 1] == q'[..n - 1];
    }
  }

  /** The ticket core ticket `k` starts from before its draws are repaired: the base
      ticket, varied at `1 + k` positions for `k > 0` with the shuffle draws `us[k - 1]`. */
  function CoreDraft(ms: seq<Classified>, k: nat, us: seq<seq<real>>): (d: Picks)
    requires 0 < k ==> k - 1 < |us| && |us[k - 1]| == |NonAnchors(ms)| && Units(us[k - 1])
    ensures |d| == |ms|
  {
    if k == 0 then Base(ms) else ApplyVariation(Base(ms), ms, k, us[k - 1])
  }

  /** Shuffle draws for each varied core ticket. */
  predicate CoreDraws(ms: seq<Classified>, us: seq<seq<real>>)
  {
    |us| == CoreCount - 1 && forall k :: 0 <= k < |us| ==> |us[k]| == |NonAnchors(ms)| && Units(us[k])
  }

  /** The four core tickets (`generateCoreQuinielas`). */
  function Core(ms: seq<Classified>, us: seq<seq<real>>): (r: seq<Picks>)
    requires CoreDraws(ms, us)
    ensures |r| == CoreCount
    ensures forall k :: 0 <= k < |r| ==> |r[k]| == |ms|
  {
    seq(CoreCount, k requires 0 <= k < CoreCount => AdjustDraws(CoreDraft(ms, k, us), ms))
  }

  /** Core ticket `k` is the repair of the base ticket with at most `1 + k` non-anchor
      matches switched to their second choice (none for the first ticket). */
  lemma CoreFromBase(ms: seq<Classified>, us: seq<seq<real>>, k: nat)
    requires CoreDraws(ms, us) && k < CoreCount
    ensures var d := CoreDraft(ms, k, us);
      && Core(ms, us)[k] == AdjustDraws(d, ms)
      && (k == 0 ==> d == Base(ms))
      && (forall i :: 0 <= i < |ms| && ms[i].category == Ancla ==> d[i] == Base(ms)[i])
      && (forall i :: 0 <= i < |ms| && d[i] != Base(ms)[i] ==> d[i] == Alternative(ms[i].probs))
      && Hamming(Base(ms), d) <= Min(1 + k, |NonAnchors(ms)|)
  {
    CoreAt(ms, us, k);
    CoreDraftFrame(ms, us, k);
  }

  lemma CoreDraftFrame(ms: seq<Classified>, us: seq<seq<real>>, k: nat)
    requires CoreDraws(ms, us) && k < CoreCount
    ensures var d, b := CoreDraft(ms, k, us), Base(ms);
      && (forall i :: 0 <= i < |ms| && ms[i].category == Ancla ==> d[i] == b[i])
      && (forall i :: 0 <= i < |ms| && d[i] != b[i] ==> d[i] == Alternative(ms[i].probs))
      && Hamming(b, d) <= Min(1 + k, |NonAnchors(ms)|)
  {
    var b := Base(ms);
    if k == 0 {
      HammingZeroIffEqual(b, b);
    } else {
      VariationFrame(b, ms, k, us[k - 1]);
    }
  }

  lemma CoreAt(ms: seq<Classified>, us: seq<seq<real>>, k: nat)
    requires CoreDraws(ms, us) && k < CoreCount
    ensures Core(ms, us)[k] == AdjustDraws(CoreDraft(ms, k, us), ms)
  {
  }

  /** The match whose second choice satellite B of pair `parId` always takes: Divisor
      number `parId mod #Divisors` in slate order, or match 0 when there is no Divisor. */
  function Principal(ms: seq<Classified>, parId: nat): (i: nat)
    ensures |Divisors(ms)| == 0 ==> i == 0
    ensures |Divisors(ms)| > 0 ==> i < |ms| && ms[i].category == Divisor
    ensures |Divisors(ms)| > 0 ==> i == Divisors(ms)[parId % |Divisors(ms)|]
  {
    var d := Divisors(ms);
    if |d| == 0 then 0 else
      assert d[parId % |d|] in d;
      d[parId % |d|]
  }

  /** Pairs cycle through the Divisor matches: consecutive pairs up to their number get
      different principal matches, and the assignment repeats after that. */
  lemma PrincipalCycle(ms: seq<Classified>, a: nat, b: nat)
    requires |Divisors(ms)| > 0
    ensures Principal(ms, a + |Divisors(ms)|) == Principal(ms, a)
    ensures a < b < |Divisors(ms)| ==> Principal(ms, a) != Principal(ms, b)
  {
    var d := Divisors(ms);
    var n := |d|;
    ModPeriod(a, n);
    assert Principal(ms, a + n) == d[(a + n) % n];
    assert Principal(ms, a) == d[a % n];
    if a < b < n {
      ModPeriod(b, n);
    }
  }

  lemma ModPeriod(a: nat, n: nat)
    requires n > 0
    ensures (a + n) % n == a % n
    ensures a < n ==> a % n == a
  {
    var q, m := a / n, a % n;
    assert a == n * q + m && 0 <= m < n;
    assert a + n == n * (q + 1) + m;
    DivModUnique(a + n, n, q + 1, m);
    if a < n {
      DivModUnique(a, n, 0, a);
    }
  }

  /** Euclidean division has one quotient and remainder. */
  lemma DivModUnique(x: nat, n: nat, q: int, m: int)
    requires n > 0 && x == n * q + m && 0 <= m < n
    ensures x % n == m
  {
    var q', m' := x / n, x % n;
    assert x == n * q' + m' && 0 <= m' < n;
    var d := q - q';
    assert n * d == n * q - n * q';
    assert n * d == m' - m;
    if d >= 1 {
      MulAtLeast(n, d);
    } else if d <= -1 {
      MulAtLeast(n, -d);
    }
  }

  lemma MulAtLeast(n: nat, d: int)
    requires d >= 1
    ensures n * d >= n
  {
    assert n * d == n + n * (d - 1);
  }

  /** The two satellites of pair `parId` before their draws are repaired
      (`crearParSatelites`): A is the suggested outcome everywhere; B takes the second
      choice at the principal match, A's pick at every other anchor, and at any other
      match the second choice when that match's random draw `coins[i]` is below 0.3. */
  function PairDrafts(ms: seq<Classified>, parId: nat, coins: seq<real>): (d: (Picks, Picks))
    requires |coins| == |ms|
    ensures |d.0| == |ms| && |d.1| == |ms|
  {
    var p := Principal(ms, parId);
    var b := seq(|ms|, i requires 0 <= i < |ms| =>
      if i == p then Alternative(ms[i].probs)
      else if ms[i].category == Ancla then ms[i].suggested
      else if coins[i] < PairFlipChance then Alternative(ms[i].probs)
      else ms[i].suggested);
    (Suggestions(ms), b)
  }

  /** The pair's drafts agree at every match except the principal one and those free
      matches whose coin came up; they differ at the principal match whenever its second
      choice is not its suggestion, as for a consistent record with pairwise distinct
      probabilities. */
  lemma PairShape(ms: seq<Classified>, parId: nat, coins: seq<real>)
    requires |coins| == |ms|
    ensures var (a, b) := PairDrafts(ms, parId, coins);
      var p := Principal(ms, parId);
      && (forall i :: 0 <= i < |ms| ==> a[i] == ms[i].suggested)
      && (p < |ms| ==> b[p] == Alternative(ms[p].probs))
      && (forall i :: 0 <= i < |ms| && i != p && ms[i].category == Ancla ==> b[i] == a[i])
      && (forall i :: 0 <= i < |ms| && b[i] != a[i] ==>
            b[i] == Alternative(ms[i].probs) && (i == p || (ms[i].category != Ancla && coins[i] < PairFlipChance)))
      && (p < |ms| && Alternative(ms[p].probs) != ms[p].suggested ==> Hamming(a, b) >= 1)
  {
    var (a, b) := PairDrafts(ms, parId, coins);
    var p := Principal(ms, parId);
    if p < |ms| && Alternative(ms[p].probs) != ms[p].suggested {
      HammingZeroIffEqual(a, b);
    }
  }

  /** A pair built on a consistent principal record with pairwise distinct probabilities
      always holds two different drafts. */
  lemma PairDiffers(ms: seq<Classified>, parId: nat, coins: seq<real>)
    requires |coins| == |ms| && |ms| > 0
    requires var c := ms[Principal(ms, parId)];
      Consistent(c) && c.probs.home != c.probs.draw && c.probs.draw != c.probs.away && c.probs.home != c.probs.away
    ensures Hamming(PairDrafts(ms, parId, coins).0, PairDrafts(ms, parId, coins).1) >= 1
  {
    var p := Principal(ms, parId);
    AlternativeMatchesSuggested(ms[p].probs);
    PairShape(ms, parId, coins);
  }

  /** The two repaired satellites of pair `parId`. */
  function Pair(ms: seq<Classified>, parId: nat, coins: seq<real>): (r: (Picks, Picks))
    requires |coins| == |ms|
    ensures |r.0| == |ms| && |r.1| == |ms|
  {
    var d := PairDrafts(ms, parId, coins);
    (AdjustDraws(d.0, ms), AdjustDraws(d.1, ms))
  }

  /** Satellite A takes every suggested outcome, so when those hold more than six draws
      its repair changes nothing and it keeps them all. */
  lemma SuggestionsKeepTheirDraws(ms: seq<Classified>, parId: nat, coins: seq<real>)
    requires |coins| == |ms| && Draws(Suggestions(ms)) > DrawsMax
    ensures Pair(ms, parId, coins).0 == Suggestions(ms)
  {
    TrimKeepsSuggestedDraws(Suggestions(ms), ms);
  }

  /** The extra satellite before repair (`crearSateliteIndividual`): the base ticket with
      the second choice at each non-anchor whose random draw `coins[i]` is below 0.4. */
  function SingleDraft(ms: seq<Classified>, coins: seq<real>): (d: Picks)
    requires |coins| == |ms|
    ensures |d| == |ms|
  {
    var q := Base(ms);
    seq(|ms|, i requires 0 <= i < |ms| =>
      if ms[i].category != Ancla && coins[i] < SingleFlipChance then Alternative(ms[i].probs) else q[i])
  }

  /** The extra satellite keeps the base ticket's anchors and switches only free matches
      whose coin came up, each to its second choice. */
  lemma SingleShape(ms: seq<Classified>, coins: seq<real>)
    requires |coins| == |ms|
    ensures var d := SingleDraft(ms, coins);
      && (forall i :: 0 <= i < |ms| && ms[i].category == Ancla ==> d[i] == Base(ms)[i])
      && (forall i :: 0 <= i < |ms| && d[i] != Base(ms)[i] ==>
            d[i] == Alternative(ms[i].probs) && coins[i] < SingleFlipChance)
  {
  }

  function Single(ms: seq<Classified>, coins: seq<real>): (q: Picks)
    requires |coins| == |ms|
    ensures |q| == |ms|
  {
    AdjustDraws(SingleDraft(ms, coins), ms)
  }

  /** Random draws for `num` satellites: one coin per match for each pair and for the
      extra satellite. */
  predicate SatelliteDraws(ms: seq<Classified>, num: nat, pairCoins: seq<seq<real>>, singleCoins: seq<real>)
  {
    |pairCoins| == num / 2 && (forall k :: 0 <= k < |pairCoins| ==> |pairCoins[k]| == |ms|)
    && |singleCoins| == |ms|
  }

  /** The two tickets of each pair, one after the other: A of pair `k` at position `2k`,
      its B at `2k + 1`. */
  function Interleave(ps: seq<(Picks, Picks)>): (r: seq<Picks>)
    ensures |r| == 2 * |ps|
  {
    if |ps| == 0 then [] else Interleave(ps[..|ps| - 1]) + [ps[|ps| - 1].0, ps[|ps| - 1].1]
  }

  /** Pair `k` sits at positions `2k` and `2k + 1`; when every ticket of every pair has
      `m` picks, so has every ticket of the result. */
  lemma {:induction false} InterleaveLayout(ps: seq<(Picks, Picks)>, m: nat)
    ensures var r := Interleave(ps);
      && (forall k :: 0 <= k < |ps| ==> r[2 * k] == ps[k].0 && r[2 * k + 1] == ps[k].1)
      && ((forall k :: 0 <= k < |ps| ==> |ps[k].0| == m && |ps[k].1| == m) ==> forall t :: 0 <= t < |r| ==> |r[t]| == m)
  {
    if |ps| > 0 {
      var n := |ps| - 1;
      var pre := Interleave(ps[..n]);
      var r := Interleave(ps);
      InterleaveLayout(ps[..n], m);
      assert r == pre + [ps[n].0, ps[n].1];
      forall k | 0 <= k < |ps|
        ensures r[2 * k] == ps[k].0 && r[2 * k + 1] == ps[k].1
      {
        if k < n {
          assert ps[..n][k] == ps[k];
          assert r[2 * k] == pre[2 * k] && r[2 * k + 1] == pre[2 * k + 1];
        } else {
          assert r[2 * n] == ps[n].0 && r[2 * n + 1] == ps[n].1;
        }
      }
      if forall k :: 0 <= k < |ps| ==> |ps[k].0| == m && |ps[k].1| == m {
        assert forall k :: 0 <= k < n ==> ps[..n][k] == ps[k];
        forall t | 0 <= t < |r|
          ensures |r[t]| == m
        {
          if t < |pre| {
            assert r[t] == pre[t];
          }
        }
      }
    }
  }

  /** The repaired pairs, pair `k` drawn with the coins `pairCoins[k]`. */
  function Pairs(ms: seq<Classified>, pairCoins: seq<seq<real>>): (r: seq<(Picks, Picks)>)
    requires forall k :: 0 <= k < |pairCoins| ==> |pairCoins[k]| == |ms|
    ensures |r| == |pairCoins|
    ensures forall k :: 0 <= k < |r| ==> r[k] == Pair(ms, k, pairCoins[k])
  {
    seq(|pairCoins|, k requires 0 <= k < |pairCoins| => Pair(ms, k, pairCoins[k]))
  }

  /** `generateSatelliteQuinielas`: `num / 2` pairs, then the extra satellite when `num`
      is odd; every ticket has one pick per match. */
  function Satellites(ms: seq<Classified>, num: nat, pairCoins: seq<seq<real>>, singleCoins: seq<real>): (r: seq<Picks>)
    requires SatelliteDraws(ms, num, pairCoins, singleCoins)
    ensures |r| == num
    ensures forall t :: 0 <= t < num ==> |r[t]| == |ms|
  {
    var p := Interleave(Pairs(ms, pairCoins));
    InterleaveLayout(Pairs(ms, pairCoins), |ms|);
    p + if num % 2 == 1 then [Single(ms, singleCoins)] else []
  }

  /** Where each satellite comes from: tickets `2k` and `2k + 1` are pair `k`, and an odd
      count ends with the extra satellite. */
  lemma SatelliteLayout(ms: seq<Classified>, num: nat, pairCoins: seq<seq<real>>, singleCoins: seq<real>)
    requires SatelliteDraws(ms, num, pairCoins, singleCoins)
    ensures var r := Satellites(ms, num, pairCoins, singleCoins);
      && (forall k :: 0 <= k < num / 2 ==>
            r[2 * k] == Pair(ms, k, pairCoins[k]).0 && r[2 * k + 1] == Pair(ms, k, pairCoins[k]).1)
      && (num % 2 == 1 ==> r[num - 1] == Single(ms, singleCoins))
  {
    var r := Satellites(ms, num, pairCoins, singleCoins);
    var ps := Pairs(ms, pairCoins);
    var p := Interleave(ps);
    InterleaveLayout(ps, |ms|);
    assert r[..|p|] == p;
    forall k | 0 <= k < num / 2
      ensures r[2 * k] == ps[k].0 && r[2 * k + 1] == ps[k].1
    {
      assert r[2 * k] == p[2 * k] && r[2 * k + 1] == p[2 * k + 1];
    }
  }
}

=== FILE: numeric.dfy ===
/** Small arithmetic helpers shared by the model: minima and maxima, absolute value,
    integer powers, and the index drawn by `Math.floor(u * n)` from a uniform draw `u`. */
module Numeric {

  function Min(a: int, b: int): int { if a <= b then a else b }

  function Max(a: int, b: int): int { if a >= b then a else b }

  function RMin(a: real, b: real): real { if a <= b then a else b }

  function RMax(a: real, b: real): real { if a >= b then a else b }

  function Abs(x: real): real { if x < 0.0 then -x else x }

  /** `r` raised to the natural power `k`. */
  function Pow(r: real, k: nat): real
  {
    if k == 0 then 1.0 else Pow(r, k - 1) * r
  }

  /** A value `Math.random()` can return. */
  predicate Unit(u: real) { 0.0 <= u < 1.0 }

  /** A stream of such numbers. */
  predicate Units(us: seq<real>)
  {
    forall k :: 0 <= k < |us| ==> Unit(us[k])
  }

  /** The index `Math.floor(u * n)` picked by a uniform draw `u` among `n` choices. */
  function ScaledIndex(u: real, n: nat): (k: nat)
    requires Unit(u) && n > 0
    ensures k < n
    ensures k as real <= u * n as real < k as real + 1.0
  {
    var x := u * n as real;
    assert 0.0 <= x < n as real;
    x.Floor
  }
}

=== FILE: objective.dfy ===
/** The portfolio objective (`evaluarPortafolio`): the probability that at least one
    ticket hits eleven or more, `1 - prod (1 - p_i)`, taking every ticket's estimate `p_i`
    as independent. */
module Objective {
  import opened Tickets

  /** Every ticket's estimate is a probability. */
  predicate Probabilities(ts: seq<Ticket>)
  {
    forall i :: 0 <= i < |ts| ==> 0.0 <= ts[i].prob11 <= 1.0
  }

  /** One step of the source's `reduce`: the chance that nobody has hit so far, times the
      chance that ticket `t` misses too. */
  function Survive(acc: real, t: Ticket): real
  {
    acc * (1.0 - t.prob11)
  }

  /** A left fold over the tickets in portfolio order, as `Array.prototype.reduce` does. */
  function Fold(f: (real, Ticket) -> real, acc: real, ts: seq<Ticket>): real
  {
    if |ts| == 0 then acc else f(Fold(f, acc, ts[..|ts| - 1]), ts[|ts| - 1])
  }

  /** Probability that no ticket hits. */
  function Miss(ts: seq<Ticket>): real
  {
    Fold(Survive, 1.0, ts)
  }

  /** The objective; 0 for an empty portfolio. */
  function Evaluate(ts: seq<Ticket>): (v: real)
    ensures |ts| == 0 ==> v == 0.0
    ensures Probabilities(ts) ==> 0.0 <= v <= 1.0
  {
    if |ts| == 0 then 0.0
    else
      MissBounds(ts);
      1.0 - Miss(ts)
  }

  lemma MulUnit(a: real, b: real)
    requires 0.0 <= a <= 1.0 && 0.0 <= b <= 1.0
    ensures 0.0 <= a * b <= a
  {
    assert a * (1.0 - b) >= 0.0;
    assert a * b + a * (1.0 - b) == a;
  }

  /** With probabilities only, nobody hitting is itself a probability. */
  lemma {:induction false} MissBounds(ts: seq<Ticket>)
    ensures Probabilities(ts) ==> 0.0 <= Miss(ts) <= 1.0
  {
    if |ts| > 0 && Probabilities(ts) {
      var n := |ts| - 1;
      assert Probabilities(ts[..n]);
      MissBounds(ts[..n]);
      MulUnit(Miss(ts[..n]), 1.0 - ts[n].prob11);
    }
  }

  /** A step function whose order of application does not matter. */
  ghost predicate RightCommutes(f: (real, Ticket) -> real)
  {
    forall m: real, a: Ticket, b: Ticket :: f(f(m, a), b) == f(f(m, b), a)
  }

  lemma SurviveCommutes()
    ensures RightCommutes(Survive)
  {
    forall m: real, a: Ticket, b: Ticket
      ensures Survive(Survive(m, a), b) == Survive(Survive(m, b), a)
    {
      Swap(m, 1.0 - a.prob11, 1.0 - b.prob11);
    }
  }

  lemma Swap(m: real, x: real, y: real)
    ensures (m * x) * y == (m * y) * x
  {
  }

  /** Folding a right-commuting step, ticket `i` may be taken out and applied last. */
  lemma {:induction false} FoldRemove(f: (real, Ticket) -> real, acc: real, ts: seq<Ticket>, i: nat)
    requires RightCommutes(f) && i < |ts|
    ensures Fold(f, acc, ts) == f(Fold(f, acc, ts[..i] + ts[i + 1..]), ts[i])
  {
    var n := |ts| - 1;
    var r := ts[..i] + ts[i + 1..];
    if i == n {
      assert r == ts[..n];
    } else {
      var p := ts[..n];
      FoldRemove(f, acc, p, i);
      assert r[..|r| - 1] == p[..i] + p[i + 1..] && r[|r| - 1] == ts[n] && p[i] == ts[i];
    }
  }

  /** Folding a right-commuting step gives the same value for every ordering of the
      tickets. */
  lemma {:induction false} FoldPermutation(f: (real, Ticket) -> real, acc: real, ts: seq<Ticket>, us: seq<Ticket>)
    requires RightCommutes(f) && multiset(ts) == multiset(us)
    ensures Fold(f, acc, ts) == Fold(f, acc, us)
    decreases |ts|
  {
    assert |ts| == |multiset(ts)| == |multiset(us)| == |us|;
    if |ts| > 0 {
      var n := |ts| - 1;
      var x := ts[n];
      assert ts == ts[..n] + [x];
      assert x in multiset(us);
      var i :| 0 <= i < |us| && us[i] == x;
      var rest := us[..i] + us[i + 1..];
      assert us == us[..i] + [x] + us[i + 1..];
      assert multiset(ts[..n]) + multiset{x} == multiset(rest) + multiset{x} by {
        assert multiset(ts) == multiset(ts[..n]) + multiset{x};
        assert multiset(us) == multiset(us[..i]) + multiset{x} + multiset(us[i + 1..]);
        assert multiset(rest) == multiset(us[..i]) + multiset(us[i + 1..]);
      }
      Cancel(multiset(ts[..n]), multiset(rest), x);
      FoldPermutation(f, acc, ts[..n], rest);
      FoldRemove(f, acc, us, i);
    }
  }

  lemma Cancel<T>(a: multiset<T>, b: multiset<T>, x: T)
    requires a + multiset{x} == b + multiset{x}
    ensures a == b
  {
    forall y ensures a[y] == b[y] {
      assert (a + multiset{x})[y] == (b + multiset{x})[y];
    }
  }

  /** The objective does not depend on the order of the tickets. */
  lemma EvaluatePermutation(ts: seq<Ticket>, us: seq<Ticket>)
    requires multiset(ts) == multiset(us)
    ensures Miss(ts) == Miss(us) && Evaluate(ts) == Evaluate(us)
  {
    assert |ts| == |multiset(ts)| == |multiset(us)| == |us|;
    SurviveCommutes();
    FoldPermutation(Survive, 1.0, ts, us);
  }

  /** Appending a ticket raises the objective by its estimate times the chance that the
      portfolio missed so far, which is never negative: GRASP's marginal gains are all
      at least zero. */
  lemma AppendGain(ts: seq<Ticket>, c: Ticket)
    requires Probabilities(ts) && 0.0 <= c.prob11 <= 1.0
    ensures Evaluate(ts + [c]) - Evaluate(ts) == Miss(ts) * c.prob11
    ensures Evaluate(ts + [c]) >= Evaluate(ts)
  {
    var tc := ts + [c];
    assert tc[..|tc| - 1] == ts && tc[|tc| - 1] == c;
    MissBounds(ts);
    Gain(Miss(tc), Miss(tc[..|tc| - 1]), Miss(ts), 1.0 - tc[|tc| - 1].prob11, c.prob11);
  }

  /** Appending any number of tickets never lowers the objective. */
  lemma {:induction false} ExtendGain(ts: seq<Ticket>, extra: seq<Ticket>)
    requires Probabilities(ts) && Probabilities(extra)
    ensures Evaluate(ts + extra) >= Evaluate(ts)
  {
    if |extra| > 0 {
      var n := |extra| - 1;
      assert Probabilities(extra[..n]);
      ExtendGain(ts, extra[..n]);
      var front := ts + extra[..n];
      assert Probabilities(front) by {
        assert forall i :: 0 <= i < |front| ==> front[i] == if i < |ts| then ts[i] else extra[i - |ts|];
      }
      AppendGain(front, extra[n]);
      assert front + [extra[n]] == ts + extra;
    } else {
      assert ts + extra == ts;
    }
  }

  lemma Gain(m1: real, m': real, m: real, f: real, p: real)
    requires m1 == m' * f && m' == m && f == 1.0 - p && 0.0 <= m && 0.0 <= p
    ensures (1.0 - m1) - (1.0 - m) == m * p && m * p >= 0.0
  {
  }
}

=== FILE: optimizer.dfy ===
/** The optimizer (`optimizePortfolioGRASPAnnealing`): a pool of varied base tickets, a
    GRASP phase that grows the portfolio by candidates drawn from the top of the
    marginal-gain ranking, and a simulated-annealing phase over single-pick neighbours
    that only ever moves to portfolios the validator accepts. Every `Math.random()` the
    source draws is an explicit input here. */
module Optimizer {
  import opened Numeric
  import opened Tickets
  import opened Config
  import opened Classifier
  import opened DrawRepair
  import opened Generator
  import Objective
  import Validator
  import Ranking

  // The candidate pool

  /** The draws behind one pool candidate: the variation level, the shuffle of the
      non-anchor matches, and the candidate's estimate of eleven or more hits. */
  datatype PoolDraw = PoolDraw(variation: real, shuffle: seq<real>, prob: real)

  predicate PoolDrawOk(ms: seq<Classified>, d: PoolDraw)
  {
    Unit(d.variation) && |d.shuffle| == |NonAnchors(ms)| && Units(d.shuffle)
  }

  /** The ticket a candidate starts from: the base ticket varied at one to five
      non-anchor matches. */
  function CandidateDraft(ms: seq<Classified>, d: PoolDraw): (q: Picks)
    requires PoolDrawOk(ms, d)
    ensures |q| == |ms|
  {
    ApplyVariation(Base(ms), ms, ScaledIndex(d.variation, PoolVariations), d.shuffle)
  }

  /** One pool candidate: the draft with its draws repaired. */
  function Candidate(ms: seq<Classified>, d: PoolDraw): (t: Ticket)
    requires PoolDrawOk(ms, d)
    ensures |t.picks| == |ms| && t.prob11 == d.prob
  {
    Ticket(AdjustDraws(CandidateDraft(ms, d), ms), d.prob)
  }

  /** Before repair a candidate differs from the base ticket at no more than five
      matches (which ones, and how, `VariationFrame` says); a draft already holding 4 to 6
      draws is kept as it is. */
  lemma CandidateFrame(ms: seq<Classified>, d: PoolDraw)
    requires PoolDrawOk(ms, d)
    ensures Hamming(Base(ms), CandidateDraft(ms, d)) <= PoolVariations
    ensures DrawsMin <= Draws(CandidateDraft(ms, d)) <= DrawsMax ==> Candidate(ms, d).picks == CandidateDraft(ms, d)
  {
    var b, v := Base(ms), ScaledIndex(d.variation, PoolVariations);
    var q := ApplyVariation(b, ms, v, d.shuffle);
    assert q == CandidateDraft(ms, d);
    VariationFrame(b, ms, v, d.shuffle);
    assert Min(1 + v, |NonAnchors(ms)|) <= PoolVariations;
  }

  /** The pool, one candidate per draw (the source makes 1000). */
  function Pool(ms: seq<Classified>, ds: seq<PoolDraw>): (p: seq<Ticket>)
    requires forall k :: 0 <= k < |ds| ==> PoolDrawOk(ms, ds[k])
    ensures |p| == |ds| && forall k :: 0 <= k < |p| ==> |p[k].picks| == |ms|
  {
    seq(|ds|, k requires 0 <= k < |ds| => Candidate(ms, ds[k]))
  }

  // GRASP

  /** What adding `c` to the portfolio adds to the objective. */
  function Gain(cur: seq<Ticket>, c: Ticket): real
  {
    Objective.Evaluate(cur + [c]) - Objective.Evaluate(cur)
  }

  /** Each candidate's score, by pool position. */
  function Scores(pool: seq<Ticket>, score: Ticket -> real): (g: seq<real>)
    ensures |g| == |pool| && forall i :: 0 <= i < |pool| ==> g[i] == score(pool[i])
  {
    seq(|pool|, i requires 0 <= i < |pool| => score(pool[i]))
  }

  /** How many of the best-ranked candidates GRASP samples from:
      `max(1, floor(n * alpha))` with the fraction `alpha = 0.15` (the top 15%). */
  function TopCount(n: nat): (k: nat)
    ensures 1 <= k && (n > 0 ==> k <= n)
  {
    var x := n as real * 0.15;
    assert 0.0 <= x <= n as real;
    Max(1, x.Floor)
  }

  /** `pool` listed in the order `order` gives. */
  function Reorder(pool: seq<Ticket>, order: seq<nat>): (r: seq<Ticket>)
    requires Ranking.Within(order, |pool|)
    ensures |r| == |order| && forall a :: 0 <= a < |order| ==> r[a] == pool[order[a]]
  {
    seq(|order|, a requires 0 <= a < |order| => pool[order[a]])
  }

  /** Listing a pool in an order that names each position once keeps its contents. */
  lemma {:induction false} ReorderPermutes(pool: seq<Ticket>, order: seq<nat>)
    requires |order| == |pool| && Ranking.Within(order, |pool|) && Ranking.Distinct(order)
    requires forall x :: 0 <= x < |pool| ==> x in order
    ensures multiset(Reorder(pool, order)) == multiset(pool)
    decreases |pool|
  {
    if |pool| > 0 {
      var n := |pool| - 1;
      assert n in order;
      var a :| 0 <= a < |order| && order[a] == n;
      var order' := order[..a] + order[a + 1..];
      DropFromOrder(order, a);
      ReorderPermutes(pool[..n], order');
      ReorderStep(pool, order, a);
    }
  }

  /** The inductive step: if the order without place `a`, which names the last
      position, keeps the contents of the pool without its last ticket, the whole order
      keeps the contents of the whole pool. */
  lemma ReorderStep(pool: seq<Ticket>, order: seq<nat>, a: nat)
    requires |pool| > 0 && Ranking.Within(order, |pool|) && a < |order| && order[a] == |pool| - 1
    requires Ranking.Within(order[..a] + order[a + 1..], |pool| - 1)
    requires multiset(Reorder(pool[..|pool| - 1], order[..a] + order[a + 1..])) == multiset(pool[..|pool| - 1])
    ensures multiset(Reorder(pool, order)) == multiset(pool)
  {
    var n := |pool| - 1;
    var r := Reorder(pool, order);
    ReorderDrop(pool, order, a);
    Strike(r, a);
    assert pool == pool[..n] + [pool[n]];
  }

  /** A sequence holds what it holds without place `a`, plus the entry there. */
  lemma Strike<T>(r: seq<T>, a: nat)
    requires a < |r|
    ensures multiset(r) == multiset(r[..a] + r[a + 1..]) + multiset{r[a]}
  {
    assert r == r[..a] + [r[a]] + r[a + 1..];
  }

  /** Striking place `a` of the order strikes the same place of the listing. */
  lemma ReorderDrop(pool: seq<Ticket>, order: seq<nat>, a: nat)
    requires |pool| > 0 && Ranking.Within(order, |pool|) && a < |order|
    requires Ranking.Within(order[..a] + order[a + 1..], |pool| - 1)
    ensures var r := Reorder(pool, order);
      Reorder(pool[..|pool| - 1], order[..a] + order[a + 1..]) == r[..a] + r[a + 1..]
  {
  }

  /** Striking the largest position from such an order leaves an order of the others. */
  lemma DropFromOrder(order: seq<nat>, a: nat)
    requires |order| > 0 && Ranking.Within(order, |order|) && Ranking.Distinct(order)
    requires forall x :: 0 <= x < |order| ==> x in order
    requires a < |order| && order[a] == |order| - 1
    ensures var order', n := order[..a] + order[a + 1..], |order| - 1;
      && Ranking.Within(order', n) && Ranking.Distinct(order')
      && forall x :: 0 <= x < n ==> x in order'
  {
    var n := |order| - 1;
    var order' := order[..a] + order[a + 1..];
    forall k | 0 <= k < |order'|
      ensures order'[k] < n
    {
      if k < a {
        assert order'[k] == order[k];
      } else {
        assert order'[k] == order[k + 1];
      }
    }
    forall x | 0 <= x < n
      ensures x in order'
    {
      assert x in order;
      var b :| 0 <= b < |order| && order[b] == x;
      if b < a {
        assert order'[b] == x;
      } else {
        assert order'[b - 1] == x;
      }
    }
  }

  /** The pool ranked by score (`candidatePool.sort` on marginal gains, which is
      stable): best first, and in pool order among equal scores. */
  function RankPool(pool: seq<Ticket>, score: Ticket -> real): (r: seq<Ticket>)
    ensures multiset(r) == multiset(pool)
    ensures forall a, b :: 0 <= a < b < |r| ==> score(r[a]) >= score(r[b])
  {
    var g := Scores(pool, score);
    var all := Ranking.Upto(|pool|);
    var order := Ranking.Sort(all, g);
    Ranking.RankedDistinct(order, g);
    assert forall x :: 0 <= x < |pool| ==> x in order by {
      forall x | 0 <= x < |pool| ensures x in order {
        assert all[x] == x;
      }
    }
    ReorderPermutes(pool, order);
    RankedScores(pool, score, order);
    Reorder(pool, order)
  }

  /** The index of the candidate one GRASP round takes, among the top `TopCount` of the
      ranked pool. */
  function Pick(n: nat, u: real): (k: nat)
    requires n > 0 && Unit(u)
    ensures k < TopCount(n) && k < n
  {
    ScaledIndex(u, TopCount(n))
  }

  /** One GRASP round (`splice(selectedIndex, 1)` on the ranked pool): the picked
      candidate leaves the pool, which keeps its ranked order for the next round. The
      candidate taken is at least as good as every candidate ranked below the top
      `TopCount`. */
  function Select(pool: seq<Ticket>, score: Ticket -> real, u: real): (r: (Ticket, seq<Ticket>))
    requires |pool| > 0 && Unit(u)
    ensures |r.1| == |pool| - 1
    ensures multiset(r.1) + multiset{r.0} == multiset(pool)
    ensures forall a, b :: 0 <= a < b < |r.1| ==> score(r.1[a]) >= score(r.1[b])
    ensures forall a :: TopCount(|pool|) - 1 <= a < |r.1| ==> score(r.1[a]) <= score(r.0)
  {
    var ranked := RankPool(pool, score);
    var k := Pick(|pool|, u);
    assert |ranked| == |multiset(pool)| == |pool|;
    Strike(ranked, k);
    var chosen, rest := ranked[k], ranked[..k] + ranked[k + 1..];
    SpliceRanked(ranked, score, k, TopCount(|pool|), chosen, rest);
    (chosen, rest)
  }

  /** When the draw picks the first place, the candidate taken is a best one. */
  lemma SelectFirst(pool: seq<Ticket>, score: Ticket -> real, u: real)
    requires |pool| > 0 && Unit(u) && Pick(|pool|, u) == 0
    ensures forall j :: 0 <= j < |pool| ==> score(pool[j]) <= score(Select(pool, score, u).0)
  {
    var ranked := RankPool(pool, score);
    assert |ranked| == |multiset(pool)| == |pool|;
    assert Select(pool, score, u).0 == ranked[0];
    forall j | 0 <= j < |pool|
      ensures score(pool[j]) <= score(ranked[0])
    {
      assert pool[j] in multiset(ranked);
      var a :| 0 <= a < |ranked| && ranked[a] == pool[j];
    }
  }

  /** Taking place `k` out of a list ranked from high to low keeps the rest ranked and
      leaves below the taken entry everything from place `top - 1` on, when `k < top`. */
  lemma SpliceRanked(ranked: seq<Ticket>, score: Ticket -> real, k: nat, top: nat, chosen: Ticket, rest: seq<Ticket>)
    requires k < |ranked| && k < top
    requires forall a, b :: 0 <= a < b < |ranked| ==> score(ranked[a]) >= score(ranked[b])
    requires chosen == ranked[k] && rest == ranked[..k] + ranked[k + 1..]
    ensures forall a, b :: 0 <= a < b < |rest| ==> score(rest[a]) >= score(rest[b])
    ensures forall a :: top - 1 <= a < |rest| ==> score(rest[a]) <= score(chosen)
  {
    assert forall a :: 0 <= a < |rest| ==> rest[a] == if a < k then ranked[a] else ranked[a + 1];
  }

  /** The ranked pool lists scores from high to low. */
  lemma RankedScores(pool: seq<Ticket>, score: Ticket -> real, order: seq<nat>)
    requires Ranking.Within(order, |pool|) && Ranking.Ranked(order, Scores(pool, score))
    ensures forall a, b :: 0 <= a < b < |order| ==> score(Reorder(pool, order)[a]) >= score(Reorder(pool, order)[b])
  {
    var g := Scores(pool, score);
    forall a, b | 0 <= a < b < |order|
      ensures score(Reorder(pool, order)[a]) >= score(Reorder(pool, order)[b])
    {
      assert Ranking.Before(g, order[a], order[b]);
    }
  }

  /** GRASP construction: starting from the given tickets, while the portfolio is below
      its target size and candidates remain, one candidate is taken from the top of the
      marginal-gain ranking (`us[k]` is round `k`'s draw). The result keeps the initial
      tickets as its prefix, adds pool candidates only, each at most as often as the pool
      holds it, stops at the target or with the pool used up, and never lowers the
      objective. */
  method Grasp(initial: seq<Ticket>, pool: seq<Ticket>, target: nat, us: seq<real>)
    returns (portfolio: seq<Ticket>, rest: seq<Ticket>)
    requires |us| >= |pool| && Units(us)
    ensures |portfolio| == if |initial| >= target then |initial| else Min(target, |initial| + |pool|)
    ensures portfolio[..|initial|] == initial
    ensures multiset(portfolio[|initial|..]) + multiset(rest) == multiset(pool)
    ensures Objective.Probabilities(initial) && Objective.Probabilities(pool) ==>
      Objective.Evaluate(portfolio) >= Objective.Evaluate(initial)
  {
    portfolio, rest := initial, pool;
    while |portfolio| < target && |rest| > 0
      invariant |initial| <= |portfolio| && portfolio[..|initial|] == initial
      invariant |portfolio| - |initial| + |rest| == |pool|
      invariant |initial| >= target ==> |portfolio| == |initial|
      invariant |initial| < target ==> |portfolio| <= target
      invariant multiset(portfolio[|initial|..]) + multiset(rest) == multiset(pool)
      decreases |rest|
    {
      var cur := portfolio;
      var score := (c: Ticket) => Gain(cur, c);
      var chosen := Select(rest, score, us[|portfolio| - |initial|]);
      var c := chosen.0;
      GrowStep(initial, portfolio, rest, chosen.1, c, pool);
      portfolio := portfolio + [c];
      rest := chosen.1;
    }
    if Objective.Probabilities(initial) && Objective.Probabilities(pool) {
      GraspGain(initial, pool, portfolio, rest);
    }
  }

  /** One GRASP round keeps the initial tickets in front and moves one ticket from the
      remaining pool to the portfolio. */
  lemma GrowStep(initial: seq<Ticket>, portfolio: seq<Ticket>, rest: seq<Ticket>, rest': seq<Ticket>, c: Ticket, pool: seq<Ticket>)
    requires |initial| <= |portfolio| && portfolio[..|initial|] == initial
    requires multiset(portfolio[|initial|..]) + multiset(rest) == multiset(pool)
    requires multiset(rest') + multiset{c} == multiset(rest)
    ensures (portfolio + [c])[..|initial|] == initial
    ensures multiset((portfolio + [c])[|initial|..]) + multiset(rest') == multiset(pool)
  {
    assert (portfolio + [c])[|initial|..] == portfolio[|initial|..] + [c];
  }

  /** Any portfolio that extends the initial tickets by tickets of the pool scores at
      least as well as the initial tickets alone. */
  lemma GraspGain(initial: seq<Ticket>, pool: seq<Ticket>, portfolio: seq<Ticket>, rest: seq<Ticket>)
    requires |initial| <= |portfolio| && portfolio[..|initial|] == initial
    requires multiset(portfolio[|initial|..]) + multiset(rest) == multiset(pool)
    requires Objective.Probabilities(initial) && Objective.Probabilities(pool)
    ensures Objective.Evaluate(portfolio) >= Objective.Evaluate(initial)
  {
    var extra := portfolio[|initial|..];
    assert portfolio == initial + extra;
    assert Objective.Probabilities(extra) by {
      forall i | 0 <= i < |extra| ensures 0.0 <= extra[i].prob11 <= 1.0 {
        assert extra[i] in multiset(pool);
      }
    }
    Objective.ExtendGain(initial, extra);
  }

  // Annealing

  /** The draws of one annealing iteration: which ticket and which non-anchor match the
      neighbour changes, which of the two other outcomes it installs, the new ticket's
      estimate, and whether the Metropolis test `Math.random() < exp(delta / T)` passes.
      That test only matters when the neighbour scores lower: at `delta == 0` it reads
      `Math.random() < 1`, which every draw in [0, 1) passes. */
  datatype Move = Move(ticket: real, matchIndex: real, choice: real, prob: real, accept: bool)

  predicate MoveOk(mv: Move)
  {
    Unit(mv.ticket) && Unit(mv.matchIndex) && Unit(mv.choice)
  }

  /** The two outcomes other than `o`, in the order L, E, V. */
  function Others(o: Outcome): (r: seq<Outcome>)
    ensures |r| == 2 && o !in r && Rank(r[0]) < Rank(r[1])
  {
    match o
    case L => [E, V]
    case E => [L, V]
    case V => [L, E]
  }

  /** The outcome a neighbour installs in place of `o`. */
  function Flip(o: Outcome, u: real): (r: Outcome)
    requires Unit(u)
    ensures r != o
  {
    Others(o)[ScaledIndex(u, 2)]
  }

  /** Either other outcome can be installed. */
  lemma FlipReaches(o: Outcome, p: Outcome)
    requires p != o
    ensures Flip(o, 0.0) == p || Flip(o, 0.5) == p
  {
    var r := Others(o);
    assert ScaledIndex(0.0, 2) == 0;
    assert ScaledIndex(0.5, 2) == 1;
    assert p == r[0] || p == r[1] by {
      match o
      case L =>
      case E =>
      case V =>
    }
  }

  /** Every ticket carries one pick per match. */
  predicate Fits(ts: seq<Ticket>, ms: seq<Classified>)
  {
    forall t :: 0 <= t < |ts| ==> |ts[t].picks| == |ms|
  }

  /** `generarVecino`: a copy of the portfolio in which one ticket has one non-anchor
      pick replaced by another outcome, its draws repaired and its estimate refreshed;
      without non-anchor matches the copy is unchanged. */
  function Neighbor(ts: seq<Ticket>, ms: seq<Classified>, mv: Move): (r: seq<Ticket>)
    requires MoveOk(mv) && Fits(ts, ms)
    ensures |r| == |ts| && Fits(r, ms)
    ensures |ts| > 0 ==> forall t :: 0 <= t < |ts| && t != ScaledIndex(mv.ticket, |ts|) ==> r[t] == ts[t]
    ensures |NonAnchors(ms)| == 0 ==> r == ts
  {
    var na := NonAnchors(ms);
    if |ts| == 0 || |na| == 0 then ts
    else
      var c := ScaledIndex(mv.ticket, |ts|);
      var i := na[ScaledIndex(mv.matchIndex, |na|)];
      var q := ts[c].picks;
      ts[c := Ticket(AdjustDraws(q[i := Flip(q[i], mv.choice)], ms), mv.prob)]
  }

  /** The ticket a neighbour changes: before repair it differs from the old one at one
      non-anchor match only, and it carries the fresh estimate. */
  lemma NeighborMove(ts: seq<Ticket>, ms: seq<Classified>, mv: Move)
    requires MoveOk(mv) && Fits(ts, ms) && |ts| > 0 && |NonAnchors(ms)| > 0
    ensures var c, na := ScaledIndex(mv.ticket, |ts|), NonAnchors(ms);
      var i := na[ScaledIndex(mv.matchIndex, |na|)];
      var q := ts[c].picks;
      var draft := q[i := Flip(q[i], mv.choice)];
      && i < |ms| && ms[i].category != Ancla
      && draft[i] != q[i] && Hamming(q, draft) == 1
      && Neighbor(ts, ms, mv)[c] == Ticket(AdjustDraws(draft, ms), mv.prob)
  {
    var c, na := ScaledIndex(mv.ticket, |ts|), NonAnchors(ms);
    var i := na[ScaledIndex(mv.matchIndex, |na|)];
    assert i in na;
    var q := ts[c].picks;
    HammingUpdate(q, i, Flip(q[i], mv.choice));
  }

  /** The annealing state: the current portfolio and its score. The temperature only
      enters the Metropolis test, whose outcome is a draw here, so the loop keeps it
      apart. */
  datatype State = State(current: seq<Ticket>, score: real)

  /** The validator's verdict, the test every annealing neighbour must pass. */
  predicate Accepts(ts: seq<Ticket>)
  {
    Validator.Validate(ts).valid
  }

  /** One annealing iteration, for a validity test `accepts` and an objective
      `objective` (the optimizer passes `Accepts` and `Objective.Evaluate`). A neighbour
      the test rejects is dropped; an accepted one replaces the current portfolio when it
      scores at least as high or the Metropolis draw passes, and otherwise the state is
      left as it was. */
  function Step(ms: seq<Classified>, st: State, mv: Move,
                accepts: seq<Ticket> -> bool, objective: seq<Ticket> -> real): (r: State)
    requires MoveOk(mv) && Fits(st.current, ms)
    ensures Fits(r.current, ms) && |r.current| == |st.current|
    ensures r.current == st.current || (r.current == Neighbor(st.current, ms, mv) && accepts(r.current))
    ensures st.score == objective(st.current) ==> r.score == objective(r.current)
    ensures var nb := Neighbor(st.current, ms, mv);
      accepts(nb) && (objective(nb) >= st.score || mv.accept) ==> r.current == nb
    ensures var nb := Neighbor(st.current, ms, mv);
      !(accepts(nb) && (objective(nb) >= st.score || mv.accept)) ==> r == st
  {
    var nb := Neighbor(st.current, ms, mv);
    if !accepts(nb) then st
    else
      var s := objective(nb);
      if s - st.score >= 0.0 || mv.accept then State(nb, s) else st
  }

  /** The annealing loop as a fold of `Step` over the draws, in order. */
  function Run(ms: seq<Classified>, st: State, moves: seq<Move>,
               accepts: seq<Ticket> -> bool, objective: seq<Ticket> -> real): (r: State)
    requires Fits(st.current, ms) && forall k :: 0 <= k < |moves| ==> MoveOk(moves[k])
    ensures Fits(r.current, ms) && |r.current| == |st.current|
    ensures r.current == st.current || accepts(r.current)
    ensures st.score == objective(st.current) ==> r.score == objective(r.current)
    decreases |moves|
  {
    if |moves| == 0 then st
    else
      var n := |moves| - 1;
      Step(ms, Run(ms, st, moves[..n], accepts, objective), moves[n], accepts, objective)
  }

  /** Running one more draw is one more step. */
  lemma RunSnoc(ms: seq<Classified>, st: State, moves: seq<Move>, mv: Move,
                accepts: seq<Ticket> -> bool, objective: seq<Ticket> -> real)
    requires Fits(st.current, ms) && forall j :: 0 <= j < |moves| ==> MoveOk(moves[j])
    requires MoveOk(mv)
    ensures Run(ms, st, moves + [mv], accepts, objective)
      == Step(ms, Run(ms, st, moves, accepts, objective), mv, accepts, objective)
  {
    assert (moves + [mv])[..|moves|] == moves;
  }

  /** A prefix one longer is the prefix plus the next entry. */
  lemma PrefixSnoc<T>(s: seq<T>, k: nat)
    requires k < |s|
    ensures s[..k + 1] == s[..k] + [s[k]]
  {
  }

  /** The temperature after `k` coolings by `rate`, one multiplication per iteration. */
  function Cooled(t: real, rate: real, k: nat): real
  {
    if k == 0 then t else Cooled(t, rate, k - 1) * rate
  }

  /** Cooling `k` times multiplies by `rate^k`. */
  lemma {:induction false} CooledIsPower(t: real, rate: real, k: nat)
    ensures Cooled(t, rate, k) == t * Pow(rate, k)
  {
    if k > 0 {
      CooledIsPower(t, rate, k - 1);
      Associate(t, Pow(rate, k - 1), rate);
    }
  }

  lemma Associate(a: real, b: real, c: real)
    ensures (a * b) * c == a * (b * c)
  {
  }

  /** The annealing phase as the source loops it. The temperature ends cooled once per
      iteration whatever was accepted (`Cooling` gives it as `T0 * rate^iterations`);
      the portfolio returned is the start or one that passed `accepts`, and its score is
      its objective. The state is the latest accepted portfolio, not the best one seen. */
  method Anneal(start: seq<Ticket>, ms: seq<Classified>, t0: real, rate: real, moves: seq<Move>,
                accepts: seq<Ticket> -> bool, objective: seq<Ticket> -> real)
    returns (st: State, temperature: real)
    requires Fits(start, ms) && forall k :: 0 <= k < |moves| ==> MoveOk(moves[k])
    ensures st == Run(ms, State(start, objective(start)), moves, accepts, objective)
    ensures temperature == Cooled(t0, rate, |moves|)
    ensures st.score == objective(st.current)
    ensures st.current == start || accepts(st.current)
    ensures |st.current| == |start|
  {
    var init := State(start, objective(start));
    st := init;
    var k := 0;
    while k < |moves|
      invariant 0 <= k <= |moves|
      invariant st == Run(ms, init, moves[..k], accepts, objective)
    {
      PrefixSnoc(moves, k);
      RunSnoc(ms, init, moves[..k], moves[k], accepts, objective);
      st := Step(ms, st, moves[k], accepts, objective);
      k := k + 1;
    }
    assert moves[..k] == moves;
    temperature := Cooling(t0, rate, |moves|);
  }

  /** The temperature schedule of the annealing loop (`temperatura *= tasaEnfriamiento`
      once per iteration, accepted or not). */
  method Cooling(t0: real, rate: real, iterations: nat) returns (temperature: real)
    ensures temperature == t0 * Pow(rate, iterations)
    ensures temperature == Cooled(t0, rate, iterations)
  {
    temperature := t0;
    var k := 0;
    while k < iterations
      invariant 0 <= k <= iterations
      invariant temperature == Cooled(t0, rate, k)
    {
      temperature := temperature * rate;
      k := k + 1;
    }
    CooledIsPower(t0, rate, iterations);
  }

  /** Tickets taken from a pool of well-shaped tickets keep the shape of the slate. */
  lemma GraspFits(initial: seq<Ticket>, pool: seq<Ticket>, rest: seq<Ticket>, portfolio: seq<Ticket>, ms: seq<Classified>)
    requires Fits(initial, ms) && forall k :: 0 <= k < |pool| ==> |pool[k].picks| == |ms|
    requires |initial| <= |portfolio| && portfolio[..|initial|] == initial
    requires multiset(portfolio[|initial|..]) + multiset(rest) == multiset(pool)
    ensures Fits(portfolio, ms)
  {
    forall t | 0 <= t < |portfolio|
      ensures |portfolio[t].picks| == |ms|
    {
      if t < |initial| {
        assert portfolio[t] == portfolio[..|initial|][t];
      } else {
        assert portfolio[t] in multiset(pool) by {
          assert portfolio[t] == portfolio[|initial|..][t - |initial|];
        }
      }
    }
  }

  /** The whole optimizer: a pool of `PoolSize` candidates, GRASP up to the target
      size, then annealing for the configured number of iterations. */
  method Optimize(initial: seq<Ticket>, ms: seq<Classified>, settings: Settings,
                  draws: seq<PoolDraw>, picks: seq<real>, moves: seq<Move>)
    returns (constructed: seq<Ticket>, result: seq<Ticket>)
    requires Fits(initial, ms)
    requires |draws| == PoolSize && forall k :: 0 <= k < |draws| ==> PoolDrawOk(ms, draws[k])
    requires |picks| >= PoolSize && Units(picks)
    requires |moves| == settings.iterations && forall k :: 0 <= k < |moves| ==> MoveOk(moves[k])
    ensures |constructed| == if |initial| >= settings.targetSize then |initial| else Min(settings.targetSize, |initial| + PoolSize)
    ensures constructed[..|initial|] == initial
    ensures |result| == |constructed| && Fits(result, ms)
    ensures result == constructed || Accepts(result)
  {
    var pool := Pool(ms, draws);
    var rest;
    constructed, rest := Grasp(initial, pool, settings.targetSize, picks);
    GraspFits(initial, pool, rest, constructed, ms);
    var st, _ := Anneal(constructed, ms, settings.initialTemperature, settings.coolingRate, moves,
                        Accepts, Objective.Evaluate);
    result := st.current;
  }
}

=== FILE: optional.dfy ===
/** An optional value: `None` stands for a missing field or for a computation the source
    would carry on with as `NaN`. */
module Optional {

  datatype Option<+T> = None | Some(value: T) {

    /** The value, or `default` when absent (the source's `x || 0`). */
    function GetOr(default: T): T
    {
      match this
      case Some(v) => v
      case None => default
    }
  }
}

=== FILE: ranking.dfy ===
/** The stable sorts of the source (`Array.prototype.sort` with a numeric comparator) on
    lists of positions that start in increasing order. A stable sort of such a list by a
    key, largest first, puts `i` before `j` exactly when `i` has the larger key, or the
    same key and the smaller position; `Ranked` states that order, and the insertion sort
    below is proved to produce it. Sorting smallest first is sorting by the negated key. */
module Ranking {

  /** Every entry is a valid position of a key list of length `n`. */
  predicate Within(s: seq<nat>, n: nat)
  {
    forall a :: 0 <= a < |s| ==> s[a] < n
  }

  predicate Increasing(s: seq<nat>)
  {
    forall a, b :: 0 <= a < b < |s| ==> s[a] < s[b]
  }

  /** `i` precedes `j` in a stable sort by `key`, largest first. */
  predicate Before(key: seq<real>, i: nat, j: nat)
    requires i < |key| && j < |key|
  {
    key[i] > key[j] || (key[i] == key[j] && i < j)
  }

  predicate Ranked(s: seq<nat>, key: seq<real>)
    requires Within(s, |key|)
  {
    forall a, b :: 0 <= a < b < |s| ==> Before(key, s[a], s[b])
  }

  /** The positions `0, 1, ..., n - 1`. */
  function Upto(n: nat): (s: seq<nat>)
    ensures |s| == n && Increasing(s) && Within(s, n)
    ensures forall a :: 0 <= a < n ==> s[a] == a
  {
    seq(n, a requires 0 <= a => a)
  }

  function Insert(x: nat, t: seq<nat>, key: seq<real>): (r: seq<nat>)
    requires x < |key| && Within(t, |key|) && Ranked(t, key)
    requires forall a :: 0 <= a < |t| ==> x < t[a]
    ensures |r| == |t| + 1 && Within(r, |key|) && Ranked(r, key)
    ensures multiset(r) == multiset(t) + multiset{x}
    decreases |t|
  {
    if |t| == 0 || key[x] >= key[t[0]] then
      InsertFront(x, t, key);
      [x] + t
    else
      var rest := Insert(x, t[1..], key);
      InsertBehind(x, t, rest, key);
      [t[0]] + rest
  }

  /** Putting in front an entry that precedes every other keeps a list ranked. */
  lemma Cons(h: nat, t: seq<nat>, key: seq<real>)
    requires h < |key| && Within(t, |key|) && Ranked(t, key)
    requires forall b :: 0 <= b < |t| ==> Before(key, h, t[b])
    ensures Within([h] + t, |key|) && Ranked([h] + t, key)
  {
    var r := [h] + t;
    assert forall a :: 0 < a < |r| ==> r[a] == t[a - 1];
  }

  /** An entry with a key at least the head's, and a smaller position than all, goes
      first. */
  lemma InsertFront(x: nat, t: seq<nat>, key: seq<real>)
    requires x < |key| && Within(t, |key|) && Ranked(t, key)
    requires forall a :: 0 <= a < |t| ==> x < t[a]
    requires |t| == 0 || key[x] >= key[t[0]]
    ensures Within([x] + t, |key|) && Ranked([x] + t, key)
  {
    forall b | 0 <= b < |t|
      ensures Before(key, x, t[b])
    {
      if b > 0 {
        assert Before(key, t[0], t[b]);
      }
    }
    Cons(x, t, key);
  }

  /** An entry with a smaller key than the head's goes behind it. */
  lemma InsertBehind(x: nat, t: seq<nat>, rest: seq<nat>, key: seq<real>)
    requires x < |key| && Within(t, |key|) && Ranked(t, key)
    requires |t| > 0 && key[x] < key[t[0]]
    requires Within(rest, |key|) && Ranked(rest, key)
    requires multiset(rest) == multiset(t[1..]) + multiset{x}
    ensures Within([t[0]] + rest, |key|) && Ranked([t[0]] + rest, key)
    ensures multiset([t[0]] + rest) == multiset(t) + multiset{x}
  {
    forall b | 0 <= b < |rest|
      ensures Before(key, t[0], rest[b])
    {
      assert rest[b] in multiset(rest);
      if rest[b] != x {
        assert rest[b] in multiset(t[1..]);
        var c :| 1 <= c < |t| && t[c] == rest[b];
        assert Before(key, t[0], t[c]);
      }
    }
    Cons(t[0], rest, key);
    assert t == [t[0]] + t[1..];
  }

  /** Stable sort of increasing positions by `key`, largest key first. */
  function Sort(s: seq<nat>, key: seq<real>): (r: seq<nat>)
    requires Within(s, |key|) && Increasing(s)
    ensures |r| == |s| && Within(r, |key|) && Ranked(r, key)
    ensures multiset(r) == multiset(s)
    ensures forall x :: x in r <==> x in s
  {
    if |s| == 0 then []
    else
      var t := Sort(s[1..], key);
      HeadBelowTail(s, t);
      var r := Insert(s[0], t, key);
      assert s == [s[0]] + s[1..];
      SameElements(r, s);
      r
  }

  lemma HeadBelowTail(s: seq<nat>, t: seq<nat>)
    requires |s| > 0 && Increasing(s) && multiset(t) == multiset(s[1..])
    ensures forall a :: 0 <= a < |t| ==> s[0] < t[a]
  {
    forall a | 0 <= a < |t|
      ensures s[0] < t[a]
    {
      assert t[a] in multiset(s[1..]);
      var c :| 1 <= c < |s| && s[c] == t[a];
    }
  }

  lemma SameElements(r: seq<nat>, s: seq<nat>)
    requires multiset(r) == multiset(s)
    ensures forall x :: x in r <==> x in s
  {
    forall x
      ensures x in r <==> x in s
    {
      assert x in r <==> x in multiset(r);
      assert x in s <==> x in multiset(s);
    }
  }

  /** No entry occurs twice. */
  predicate Distinct(s: seq<nat>)
  {
    forall a, b :: 0 <= a < b < |s| ==> s[a] != s[b]
  }

  /** A ranked list never repeats a position. */
  lemma RankedDistinct(s: seq<nat>, key: seq<real>)
    requires Within(s, |key|) && Ranked(s, key)
    ensures Distinct(s)
  {
  }

  /** Everything in the first `k` entries of a ranked list precedes everything after. */
  lemma LeadersPrecede(s: seq<nat>, key: seq<real>, k: nat, i: nat, j: nat)
    requires Within(s, |key|) && Ranked(s, key) && k <= |s|
    requires i in s[..k] && j in s && j !in s[..k]
    ensures i < |key| && j < |key| && Before(key, i, j)
  {
    var a :| 0 <= a < k && s[a] == i;
    var b :| 0 <= b < |s| && s[b] == j;
  }
}

=== FILE: tickets.dfy ===
/** Outcomes, tickets and the counting functions every component shares: how many
    picks of an outcome a ticket holds, the share of each outcome, and the Hamming
    distance between two tickets. */
module Tickets {
  import opened Optional

  /** The three results of a match: home win (L, "local"), draw (E, "empate"),
      away win (V, "visitante"). */
  datatype Outcome = L | E | V

  /** Position of an outcome in the order L, E, V the source iterates in. */
  function Rank(o: Outcome): nat
  {
    match o
    case L => 0
    case E => 1
    case V => 2
  }

  function OutcomeAt(i: nat): (o: Outcome)
    requires i < 3
    ensures Rank(o) == i
  {
    if i == 0 then L else if i == 1 then E else V
  }

  /** One real number per outcome: probabilities, shares or counts. */
  datatype Triple = Triple(home: real, draw: real, away: real) {

    function At(o: Outcome): real
    {
      match o
      case L => home
      case E => draw
      case V => away
    }

    function Sum(): real { home + draw + away }

    function Max(): real
    {
      if home >= draw && home >= away then home
      else if draw >= away then draw
      else away
    }

    function Min(): real
    {
      if home <= draw && home <= away then home
      else if draw <= away then draw
      else away
    }

    /** The values in the order L, E, V, as the source lists them. */
    function Keys(): (k: seq<real>)
      ensures |k| == 3 && k[0] == home && k[1] == draw && k[2] == away
    {
      [home, draw, away]
    }

    /** At least two different outcomes share the largest value. */
    predicate TopTie()
    {
      (home == draw && draw >= away) || (home == away && away >= draw) || (draw == away && away >= home)
    }
  }

  /** The outcome `reduce((a, b) => t[a] > t[b] ? a : b)` returns over the keys L, E, V:
      an outcome of largest value, ties going to the later one. */
  function TopOutcome(t: Triple): (o: Outcome)
    ensures t.At(o) == t.Max()
    ensures forall p: Outcome :: Rank(p) > Rank(o) ==> t.At(p) < t.At(o)
  {
    var first := if t.home > t.draw then L else E;
    if t.At(first) > t.away then first else V
  }

  /** The picks of a ticket, one per match. */
  type Picks = seq<Outcome>

  /** A ticket with its estimated probability of eleven or more hits. */
  datatype Ticket = Ticket(picks: Picks, prob11: real)

  /** Number of picks equal to `o`. */
  function Count(q: Picks, o: Outcome): (c: nat)
    ensures c <= |q|
  {
    if |q| == 0 then 0 else Count(q[..|q| - 1], o) + (if q[|q| - 1] == o then 1 else 0)
  }

  /** Number of draw picks (the source's `empates`). */
  function Draws(q: Picks): nat
  {
    Count(q, E)
  }

  lemma {:induction false} CountAppend(a: Picks, b: Picks, o: Outcome)
    ensures Count(a + b, o) == Count(a, o) + Count(b, o)
    decreases |b|
  {
    if |b| == 0 {
      assert a + b == a;
    } else {
      assert (a + b)[..|a + b| - 1] == a + b[..|b| - 1];
      CountAppend(a, b[..|b| - 1], o);
    }
  }

  /** Overwriting one pick changes the count of `o` by the picks removed and added. */
  lemma CountUpdate(q: Picks, i: nat, x: Outcome, o: Outcome)
    requires i < |q|
    ensures Count(q[i := x], o) + (if q[i] == o then 1 else 0) == Count(q, o) + (if x == o then 1 else 0)
  {
    assert q == q[..i] + [q[i]] + q[i + 1..];
    assert q[i := x] == q[..i] + [x] + q[i + 1..];
    CountAppend(q[..i] + [q[i]], q[i + 1..], o);
    CountAppend(q[..i], [q[i]], o);
    CountAppend(q[..i] + [x], q[i + 1..], o);
    CountAppend(q[..i], [x], o);
    assert [q[i]][..0] == [];
    assert [x][..0] == [];
  }

  /** Every pick is one of the three outcomes. */
  lemma {:induction false} CountsCover(q: Picks)
    ensures Count(q, L) + Count(q, E) + Count(q, V) == |q|
  {
    if |q| > 0 {
      CountsCover(q[..|q| - 1]);
    }
  }

  /** Tickets that agree everywhere have the same counts. */
  lemma {:induction false} CountOfConstant(q: Picks, o: Outcome)
    requires forall i :: 0 <= i < |q| ==> q[i] == o
    ensures Count(q, o) == |q|
  {
    if |q| > 0 {
      CountOfConstant(q[..|q| - 1], o);
    }
  }

  /** `q` with each listed position given the pick `v` holds there, one position after
      the other (the source's loops of `quiniela[idx] = ...`). */
  function Overwrite(q: Picks, idx: seq<nat>, v: Picks): (r: Picks)
    requires |v| == |q| && forall a :: 0 <= a < |idx| ==> idx[a] < |q|
    ensures |r| == |q|
    ensures forall i :: 0 <= i < |q| ==> r[i] == if i in idx then v[i] else q[i]
    decreases |idx|
  {
    if |idx| == 0 then q else Overwrite(q[idx[0] := v[idx[0]]], idx[1..], v)
  }

  /** Shares of L, E and V among the picks of a ticket (`calcularDistribucion`); the
      source divides by the ticket length, so an empty ticket has no distribution. */
  function Distribution(q: Picks): (r: Option<Triple>)
    ensures r.None? <==> |q| == 0
    ensures r.Some? ==> r.value.Sum() == 1.0
    ensures r.Some? ==> forall o :: 0.0 <= r.value.At(o) <= 1.0 && r.value.At(o) == Count(q, o) as real / |q| as real
  {
    if |q| == 0 then None
    else
      var t := Shares(q);
      SharesFacts(q);
      Some(t)
  }

  function Shares(q: Picks): Triple
    requires |q| > 0
  {
    var n := |q| as real;
    Triple(Count(q, L) as real / n, Count(q, E) as real / n, Count(q, V) as real / n)
  }

  lemma SharesFacts(q: Picks)
    requires |q| > 0
    ensures Shares(q).Sum() == 1.0
    ensures forall o :: 0.0 <= Shares(q).At(o) <= 1.0 && Shares(q).At(o) == Count(q, o) as real / |q| as real
  {
    var a, b, c := Count(q, L), Count(q, E), Count(q, V);
    CountsCover(q);
    assert a as real + b as real + c as real == |q| as real;
    SplitShares(a as real, b as real, c as real, |q| as real);
    var t := Shares(q);
    assert t == Triple(a as real / |q| as real, b as real / |q| as real, c as real / |q| as real);
    forall o
      ensures 0.0 <= t.At(o) <= 1.0 && t.At(o) == Count(q, o) as real / |q| as real
    {
      match o
      case L =>
      case E =>
      case V =>
    }
  }

  /** Three counts that add up to `n`, divided by `n`, give shares that add up to one. */
  lemma SplitShares(a: real, b: real, c: real, n: real)
    requires n > 0.0 && 0.0 <= a && 0.0 <= b && 0.0 <= c && a + b + c == n
    ensures a / n + b / n + c / n == 1.0
    ensures 0.0 <= a / n <= 1.0 && (a / n) * n == a
    ensures 0.0 <= b / n <= 1.0 && (b / n) * n == b
    ensures 0.0 <= c / n <= 1.0 && (c / n) * n == c
  {
    SumOfFractions(a, b, c, n);
    assert (a + b + c) / n == n / n;
  }

  lemma SumOfFractions(a: real, b: real, c: real, n: real)
    requires n > 0.0
    ensures a / n + b / n + c / n == (a + b + c) / n
  {
  }

  /** Number of positions of `a` where `b` differs or has no pick
      (`calcularDistanciaHamming`, which walks the first ticket). */
  function Hamming(a: Picks, b: Picks): (d: nat)
    ensures d <= |a|
  {
    if |a| == 0 then 0
    else Hamming(a[..|a| - 1], b) + (if |a| - 1 >= |b| || a[|a| - 1] != b[|a| - 1] then 1 else 0)
  }

  /** Hamming distance is zero exactly between equal tickets of one length. */
  lemma {:induction false} HammingZeroIffEqual(a: Picks, b: Picks)
    requires |a| == |b|
    ensures Hamming(a, b) == 0 <==> a == b
  {
    if |a| > 0 {
      HammingZeroIffEqual(a[..|a| - 1], b[..|b| - 1]);
      HammingPrefix(a[..|a| - 1], b);
      if Hamming(a, b) == 0 {
        assert a == a[..|a| - 1] + [a[|a| - 1]];
        assert b == b[..|b| - 1] + [b[|b| - 1]];
      }
    }
  }

  /** Only the first `|a|` picks of `b` matter. */
  lemma {:induction false} HammingPrefix(a: Picks, b: Picks)
    requires |a| <= |b|
    ensures Hamming(a, b) == Hamming(a, b[..|a|])
  {
    if |a| > 0 {
      HammingPrefix(a[..|a| - 1], b);
      HammingPrefix(a[..|a| - 1], b[..|a|]);
      assert b[..|a|][..|a| - 1] == b[..|a| - 1];
    }
  }

  lemma {:induction false} HammingSymmetric(a: Picks, b: Picks)
    requires |a| == |b|
    ensures Hamming(a, b) == Hamming(b, a)
  {
    if |a| > 0 {
      HammingPrefix(a[..|a| - 1], b);
      HammingPrefix(b[..|b| - 1], a);
      HammingSymmetric(a[..|a| - 1], b[..|b| - 1]);
    }
  }

  lemma {:induction false} HammingTriangle(a: Picks, b: Picks, c: Picks)
    requires |a| == |b| == |c|
    ensures Hamming(a, c) <= Hamming(a, b) + Hamming(b, c)
  {
    if |a| > 0 {
      var n := |a| - 1;
      HammingPrefix(a[..n], b);
      HammingPrefix(a[..n], c);
      HammingPrefix(b[..n], c);
      HammingTriangle(a[..n], b[..n], c[..n]);
    }
  }

  /** Overwriting one pick moves a ticket by at most one position. */
  lemma {:induction false} HammingUpdate(q: Picks, i: nat, x: Outcome)
    requires i < |q|
    ensures Hamming(q, q[i := x]) == if q[i] == x then 0 else 1
  {
    var r := q[i := x];
    if i == |q| - 1 {
      HammingPrefix(q[..i], r);
      assert r[..i] == q[..i];
      HammingZeroIffEqual(q[..i], q[..i]);
    } else {
      HammingPrefix(q[..|q| - 1], r);
      assert r[..|q| - 1] == q[..|q| - 1][i := x];
      HammingUpdate(q[..|q| - 1], i, x);
    }
  }

  /** When every difference turns a non-draw into a draw, the distance is the number of
      draws gained; when every difference turns a draw into a non-draw, the number lost. */
  lemma {:induction false} HammingCountsDrawChanges(q: Picks, r: Picks)
    requires |q| == |r|
    ensures (forall i :: 0 <= i < |q| && r[i] != q[i] ==> q[i] != E && r[i] == E) ==>
              Hamming(q, r) + Draws(q) == Draws(r)
    ensures (forall i :: 0 <= i < |q| && r[i] != q[i] ==> q[i] == E && r[i] != E) ==>
              Hamming(q, r) + Draws(r) == Draws(q)
  {
    if |q| > 0 {
      var n := |q| - 1;
      HammingPrefix(q[..n], r);
      HammingCountsDrawChanges(q[..n], r[..n]);
    }
  }
}

=== FILE: validator.dfy ===
/** The portfolio validator (`PortfolioValidator`): the hard constraints a portfolio must
    meet — pooled outcome shares inside their historical bands, four to six draws per
    ticket, no match concentrated on one outcome beyond its cap — and the summary
    metrics reported alongside. */
module Validator {
  import opened Optional
  import opened Tickets
  import opened Config
  import Objective

  /** The kinds of error the validator records, with the figures its messages print. */
  datatype Error =
    | EmptyPortfolio
    | ShareOutOfBand(outcome: Outcome, share: real)
    | DrawsOutOfRange(ticket: nat, draws: nat)
    | ExcessConcentration(matchIndex: nat, outcome: Outcome, share: real)

  /** Summary figures of a non-empty portfolio (`calcularMetricas` and the pooled shares). */
  datatype Metrics = Metrics(
    shares: Triple,
    meanProb: real,
    maxProb: real,
    minProb: real,
    portfolioProb: real,
    cost: nat,
    efficiency: real)

  datatype Report = Report(valid: bool, errors: seq<Error>, metrics: Option<Metrics>)

  // Pooled shares

  /** Number of picks equal to `o` over the whole portfolio. */
  function TotalCount(ts: seq<Ticket>, o: Outcome): nat
  {
    if |ts| == 0 then 0 else TotalCount(ts[..|ts| - 1], o) + Count(ts[|ts| - 1].picks, o)
  }

  /** Share of `o` among `14 n` predictions; the denominator is fixed, whatever the
      tickets' lengths. */
  function GlobalShare(ts: seq<Ticket>, o: Outcome): real
    requires |ts| > 0
  {
    TotalCount(ts, o) as real / (Predictions(|ts|) as real)
  }

  /** Number of predictions in `n` tickets of 14 picks. */
  function Predictions(n: nat): (c: nat)
    ensures n > 0 ==> c >= MatchCount
  {
    n * MatchCount
  }

  function GlobalShares(ts: seq<Ticket>): (t: Triple)
    requires |ts| > 0
    ensures forall o :: t.At(o) == GlobalShare(ts, o)
  {
    Triple(GlobalShare(ts, L), GlobalShare(ts, E), GlobalShare(ts, V))
  }

  predicate InBand(o: Outcome, share: real)
  {
    BandLow(o) <= share <= BandHigh(o)
  }

  /** One error per outcome whose share leaves its band, in the order L, E, V
      (`validarDistribucionGlobal`). */
  function BandErrors(shares: Triple): (e: seq<Error>)
    ensures |e| <= 3
    ensures forall k :: 0 <= k < |e| ==> e[k].ShareOutOfBand?
    ensures forall o, s :: ShareOutOfBand(o, s) in e <==> !InBand(o, shares.At(o)) && s == shares.At(o)
    ensures e == [] <==> forall o :: InBand(o, shares.At(o))
    ensures forall a, b :: 0 <= a < b < |e| ==> Rank(e[a].outcome) < Rank(e[b].outcome)
  {
    BandCheck(shares, L) + BandCheck(shares, E) + BandCheck(shares, V)
  }

  /** The error for outcome `o`, if its share leaves its band. */
  function BandCheck(shares: Triple, o: Outcome): (e: seq<Error>)
    ensures |e| <= 1 && (e == [] <==> InBand(o, shares.At(o)))
    ensures forall k :: 0 <= k < |e| ==> e[k] == ShareOutOfBand(o, shares.At(o))
    ensures forall x :: x in e <==> !InBand(o, shares.At(o)) && x == ShareOutOfBand(o, shares.At(o))
  {
    if InBand(o, shares.At(o)) then [] else [ShareOutOfBand(o, shares.At(o))]
  }

  // Draws per ticket

  predicate DrawsOk(q: Picks)
  {
    DrawsMin <= Draws(q) <= DrawsMax
  }

  /** `e` reports exactly the tickets outside 4..6 draws, one error each in portfolio
      order, naming the ticket by its position and carrying its draw count. */
  ghost predicate ReportsDraws(ts: seq<Ticket>, e: seq<Error>)
  {
    && |e| <= |ts|
    && (forall k :: 0 <= k < |e| ==> e[k].DrawsOutOfRange?)
    && (forall i: nat, d: nat :: DrawsOutOfRange(i, d) in e <==> i < |ts| && !DrawsOk(ts[i].picks) && d == Draws(ts[i].picks))
    && (e == [] <==> forall i :: 0 <= i < |ts| ==> DrawsOk(ts[i].picks))
    && (forall a, b :: 0 <= a < b < |e| ==> e[a].ticket < e[b].ticket)
  }

  /** One error per ticket outside 4..6 draws, in portfolio order, naming the ticket by
      its position (`validarEmpatesIndividuales`). */
  function DrawErrors(ts: seq<Ticket>): (e: seq<Error>)
    ensures ReportsDraws(ts, e)
  {
    if |ts| == 0 then []
    else
      var n := |ts| - 1;
      var rest := DrawErrors(ts[..n]);
      var add := if DrawsOk(ts[n].picks) then [] else [DrawsOutOfRange(n, Draws(ts[n].picks))];
      DrawStep(ts, rest, add);
      rest + add
  }

  /** Checking one more ticket appends its error, if any, to the report so far. */
  lemma DrawStep(ts: seq<Ticket>, rest: seq<Error>, add: seq<Error>)
    requires |ts| > 0 && ReportsDraws(ts[..|ts| - 1], rest)
    requires add == if DrawsOk(ts[|ts| - 1].picks) then [] else [DrawsOutOfRange(|ts| - 1, Draws(ts[|ts| - 1].picks))]
    ensures ReportsDraws(ts, rest + add)
  {
    DrawStepEmpty(ts, rest, add);
    DrawStepMembers(ts, rest, add);
    DrawStepOrder(ts, rest, add);
  }

  lemma DrawStepEmpty(ts: seq<Ticket>, rest: seq<Error>, add: seq<Error>)
    requires |ts| > 0 && ReportsDraws(ts[..|ts| - 1], rest)
    requires add == if DrawsOk(ts[|ts| - 1].picks) then [] else [DrawsOutOfRange(|ts| - 1, Draws(ts[|ts| - 1].picks))]
    ensures |rest + add| <= |ts|
    ensures rest + add == [] <==> forall i :: 0 <= i < |ts| ==> DrawsOk(ts[i].picks)
  {
    var n := |ts| - 1;
    assert forall i :: 0 <= i < n ==> ts[..n][i] == ts[i];
    assert rest + add == [] <==> rest == [] && add == [];
  }

  lemma DrawStepMembers(ts: seq<Ticket>, rest: seq<Error>, add: seq<Error>)
    requires |ts| > 0 && ReportsDraws(ts[..|ts| - 1], rest)
    requires add == if DrawsOk(ts[|ts| - 1].picks) then [] else [DrawsOutOfRange(|ts| - 1, Draws(ts[|ts| - 1].picks))]
    ensures forall i: nat, d: nat :: DrawsOutOfRange(i, d) in rest + add <==>
      i < |ts| && !DrawsOk(ts[i].picks) && d == Draws(ts[i].picks)
  {
    var n := |ts| - 1;
    assert forall i :: 0 <= i < n ==> ts[..n][i] == ts[i];
    forall i: nat, d: nat
      ensures DrawsOutOfRange(i, d) in rest + add <==> i < |ts| && !DrawsOk(ts[i].picks) && d == Draws(ts[i].picks)
    {
      assert DrawsOutOfRange(i, d) in rest + add <==> DrawsOutOfRange(i, d) in rest || DrawsOutOfRange(i, d) in add;
    }
  }

  lemma DrawStepOrder(ts: seq<Ticket>, rest: seq<Error>, add: seq<Error>)
    requires |ts| > 0 && ReportsDraws(ts[..|ts| - 1], rest)
    requires add == if DrawsOk(ts[|ts| - 1].picks) then [] else [DrawsOutOfRange(|ts| - 1, Draws(ts[|ts| - 1].picks))]
    ensures forall k :: 0 <= k < |rest + add| ==> (rest + add)[k].DrawsOutOfRange?
    ensures forall a, b :: 0 <= a < b < |rest + add| ==> (rest + add)[a].ticket < (rest + add)[b].ticket
  {
    var e := rest + add;
    assert forall j :: 0 <= j < |e| ==> e[j] == if j < |rest| then rest[j] else add[j - |rest|];
    forall a, b | 0 <= a < b < |e|
      ensures e[a].ticket < e[b].ticket
    {
      if b >= |rest| {
        assert rest[a] in rest;
      }
    }
  }

  // Concentration per match

  /** Number of tickets that have a pick at match `m` and pick `o` there. */
  function Column(ts: seq<Ticket>, m: nat, o: Outcome): (c: nat)
    ensures c <= |ts|
  {
    if |ts| == 0 then 0
    else
      var q := ts[|ts| - 1].picks;
      Column(ts[..|ts| - 1], m, o) + if m < |q| && q[m] == o then 1 else 0
  }

  function ColumnCounts(ts: seq<Ticket>, m: nat): (t: Triple)
    ensures forall o :: t.At(o) == Column(ts, m, o) as real
  {
    Triple(Column(ts, m, L) as real, Column(ts, m, E) as real, Column(ts, m, V) as real)
  }

  /** Share of the most frequent pick at match `m`. */
  function Concentration(ts: seq<Ticket>, m: nat): real
    requires |ts| > 0
  {
    ColumnCounts(ts, m).Max() / (|ts| as real)
  }

  predicate Overloaded(ts: seq<Ticket>, m: nat)
    requires |ts| > 0
  {
    Concentration(ts, m) > Cap(m)
  }

  /** `e` reports exactly the overloaded matches among the first `m`, one error each,
      naming the outcome the source's `reduce` over L, E, V selects. */
  ghost predicate ReportsOverloads(ts: seq<Ticket>, m: nat, e: seq<Error>)
    requires |ts| > 0
  {
    && |e| <= m
    && (forall k :: 0 <= k < |e| ==> e[k].ExcessConcentration?)
    && (forall k: nat, o, s :: ExcessConcentration(k, o, s) in e <==>
         k < m && Overloaded(ts, k) && o == TopOutcome(ColumnCounts(ts, k)) && s == Concentration(ts, k))
    && (e == [] <==> forall k :: 0 <= k < m ==> !Overloaded(ts, k))
    && ((forall k :: 0 <= k < m ==> Overloaded(ts, k)) ==> |e| == m)
    && (forall a, b :: 0 <= a < b < |e| ==> e[a].matchIndex < e[b].matchIndex)
  }

  /** Errors for the overloaded matches among the first `m`, in match order. */
  function ConcentrationUpTo(ts: seq<Ticket>, m: nat): (e: seq<Error>)
    requires |ts| > 0
    ensures ReportsOverloads(ts, m, e)
  {
    if m == 0 then []
    else
      var k := m - 1;
      var prev := ConcentrationUpTo(ts, k);
      var add := if Overloaded(ts, k)
        then [ExcessConcentration(k, TopOutcome(ColumnCounts(ts, k)), Concentration(ts, k))]
        else [];
      OverloadStep(ts, k, prev, add);
      prev + add
  }

  /** Checking one more match appends its error, if any, to the report so far. */
  lemma OverloadStep(ts: seq<Ticket>, k: nat, prev: seq<Error>, add: seq<Error>)
    requires |ts| > 0 && ReportsOverloads(ts, k, prev)
    requires add == if Overloaded(ts, k)
      then [ExcessConcentration(k, TopOutcome(ColumnCounts(ts, k)), Concentration(ts, k))]
      else []
    ensures ReportsOverloads(ts, k + 1, prev + add)
  {
    var e := prev + add;
    assert forall j :: 0 <= j < |e| ==> e[j] == if j < |prev| then prev[j] else add[j - |prev|];
    forall j: nat, o, s
      ensures ExcessConcentration(j, o, s) in e <==>
        j < k + 1 && Overloaded(ts, j) && o == TopOutcome(ColumnCounts(ts, j)) && s == Concentration(ts, j)
    {
      assert ExcessConcentration(j, o, s) in e <==> ExcessConcentration(j, o, s) in prev || ExcessConcentration(j, o, s) in add;
    }
  }

  /** Concentration errors over the 14 matches; a single ticket is never checked
      (`validarConcentracion`). */
  function ConcentrationErrors(ts: seq<Ticket>): (e: seq<Error>)
    ensures forall k :: 0 <= k < |e| ==> e[k].ExcessConcentration?
    ensures |ts| >= 2 ==> ReportsOverloads(ts, MatchCount, e)
    ensures |ts| < 2 ==> e == []
  {
    if |ts| < 2 then [] else ConcentrationUpTo(ts, MatchCount)
  }

  // Metrics

  function SumProb(ts: seq<Ticket>): real
  {
    if |ts| == 0 then 0.0 else SumProb(ts[..|ts| - 1]) + ts[|ts| - 1].prob11
  }

  /** The largest estimate (`Math.max(...probs)`). */
  function MaxProb(ts: seq<Ticket>): (m: real)
    requires |ts| > 0
    ensures forall i :: 0 <= i < |ts| ==> ts[i].prob11 <= m
    ensures exists i :: 0 <= i < |ts| && ts[i].prob11 == m
  {
    var last := ts[|ts| - 1].prob11;
    if |ts| == 1 then last
    else
      var m := MaxProb(ts[..|ts| - 1]);
      assert forall i :: 0 <= i < |ts| - 1 ==> ts[..|ts| - 1][i] == ts[i];
      if last > m then last else m
  }

  /** The smallest estimate (`Math.min(...probs)`). */
  function MinProb(ts: seq<Ticket>): (m: real)
    requires |ts| > 0
    ensures forall i :: 0 <= i < |ts| ==> m <= ts[i].prob11
    ensures exists i :: 0 <= i < |ts| && ts[i].prob11 == m
  {
    var last := ts[|ts| - 1].prob11;
    if |ts| == 1 then last
    else
      var m := MinProb(ts[..|ts| - 1]);
      assert forall i :: 0 <= i < |ts| - 1 ==> ts[..|ts| - 1][i] == ts[i];
      if last < m then last else m
  }

  /** The metrics of a non-empty portfolio: the pooled shares, the mean, largest and
      smallest estimates, its objective value (the optimizer's), the cost of 15 per
      ticket and the efficiency as the objective per thousand spent. */
  function Measure(ts: seq<Ticket>): (r: Metrics)
    requires |ts| > 0
    ensures forall o :: r.shares.At(o) == GlobalShare(ts, o)
    ensures r.meanProb == SumProb(ts) / (|ts| as real)
    ensures r.maxProb == MaxProb(ts) && r.minProb == MinProb(ts)
    ensures r.portfolioProb == Objective.Evaluate(ts)
    ensures r.cost == TicketCost * |ts|
  {
    var n := |ts| as real;
    var prob := 1.0 - Objective.Miss(ts);
    var cost := Cost(|ts|);
    Metrics(GlobalShares(ts), SumProb(ts) / n, MaxProb(ts), MinProb(ts), prob, cost, prob / ((cost as real) / 1000.0))
  }

  /** What the metrics mean: the efficiency times the cost is a thousand times the
      objective, the mean estimate lies between the smallest and the largest, and with
      probabilities only the objective is one too. (Kept apart from `Measure` so that
      reasoning about validity does not carry this arithmetic along.) */
  lemma MeasureMeaning(ts: seq<Ticket>)
    requires |ts| > 0
    ensures var r := Measure(ts);
      && r.efficiency * (r.cost as real) == 1000.0 * r.portfolioProb
      && r.minProb <= r.meanProb <= r.maxProb
      && (Objective.Probabilities(ts) ==> 0.0 <= r.portfolioProb <= 1.0)
  {
    MeasureMean(ts);
    MeasureEfficiency(ts);
  }

  lemma MeasureMean(ts: seq<Ticket>)
    requires |ts| > 0
    ensures Measure(ts).minProb <= Measure(ts).meanProb <= Measure(ts).maxProb
  {
    MeanBetween(ts, MinProb(ts), MaxProb(ts));
  }

  lemma MeasureEfficiency(ts: seq<Ticket>)
    requires |ts| > 0
    ensures Measure(ts).efficiency * (Measure(ts).cost as real) == 1000.0 * Measure(ts).portfolioProb
  {
    var r := Measure(ts);
    Efficiency(r.portfolioProb, r.cost as real, r.efficiency);
  }

  /** What `n` tickets cost. */
  function Cost(n: nat): (c: nat)
    ensures n > 0 ==> c >= TicketCost
  {
    n * TicketCost
  }

  lemma Efficiency(p: real, c: real, e: real)
    requires c > 0.0 && e == p / (c / 1000.0)
    ensures e * c == 1000.0 * p
  {
  }

  /** Bounds on every estimate bound their mean. */
  lemma MeanBetween(ts: seq<Ticket>, lo: real, hi: real)
    requires |ts| > 0
    requires forall i :: 0 <= i < |ts| ==> lo <= ts[i].prob11 <= hi
    ensures lo <= SumProb(ts) / (|ts| as real) <= hi
  {
    SumBetween(ts, lo, hi);
    Scale(SumProb(ts), lo, hi, |ts| as real);
  }

  lemma {:induction false} SumBetween(ts: seq<Ticket>, lo: real, hi: real)
    requires forall i :: 0 <= i < |ts| ==> lo <= ts[i].prob11 <= hi
    ensures (|ts| as real) * lo <= SumProb(ts) <= (|ts| as real) * hi
  {
    if |ts| > 0 {
      assert forall i :: 0 <= i < |ts| - 1 ==> ts[..|ts| - 1][i] == ts[i];
      SumBetween(ts[..|ts| - 1], lo, hi);
    }
  }

  lemma Scale(s: real, lo: real, hi: real, n: real)
    requires n > 0.0 && n * lo <= s <= n * hi
    ensures lo <= s / n <= hi
  {
    assert (s / n) * n == s;
  }

  // The validator

  /** Validation as the source runs it: an empty portfolio is rejected with one error;
      otherwise the errors of the three checks are collected in order and the portfolio
      is valid exactly when there are none. */
  function Validate(ts: seq<Ticket>): (r: Report)
    ensures |ts| == 0 ==> r == Report(false, [EmptyPortfolio], None)
    ensures |ts| > 0 ==> (r.valid <==> r.errors == []) && r.metrics == Some(Measure(ts))
    ensures |ts| > 0 ==> EmptyPortfolio !in r.errors
    ensures |ts| > 0 ==> r.errors == BandErrors(GlobalShares(ts)) + DrawErrors(ts) + ConcentrationErrors(ts)
  {
    if |ts| == 0 then Report(false, [EmptyPortfolio], None)
    else
      var band, draws, conc := BandErrors(GlobalShares(ts)), DrawErrors(ts), ConcentrationErrors(ts);
      NoEmptyPortfolio(band, draws, conc);
      var errors := band + draws + conc;
      Report(errors == [], errors, Some(Measure(ts)))
  }

  lemma NoEmptyPortfolio(band: seq<Error>, draws: seq<Error>, conc: seq<Error>)
    requires forall k :: 0 <= k < |band| ==> band[k].ShareOutOfBand?
    requires forall k :: 0 <= k < |draws| ==> draws[k].DrawsOutOfRange?
    requires forall k :: 0 <= k < |conc| ==> conc[k].ExcessConcentration?
    ensures EmptyPortfolio !in band + draws + conc
  {
    var e := band + draws + conc;
    forall k | 0 <= k < |e|
      ensures e[k] != EmptyPortfolio
    {
      if k < |band| {
        assert e[k] == band[k];
      } else if k < |band| + |draws| {
        assert e[k] == draws[k - |band|];
      } else {
        assert e[k] == conc[k - |band| - |draws|];
      }
    }
  }

  // The constraints, stated directly

  predicate SharesInBands(ts: seq<Ticket>)
    requires |ts| > 0
  {
    forall o :: InBand(o, GlobalShare(ts, o))
  }

  predicate AllDrawsOk(ts: seq<Ticket>)
  {
    forall i :: 0 <= i < |ts| ==> DrawsOk(ts[i].picks)
  }

  /** No outcome is picked at any match by more than the match's cap of the tickets
      (checked from two tickets on). */
  predicate ConcentrationOk(ts: seq<Ticket>)
  {
    |ts| < 2 || forall m, o :: 0 <= m < MatchCount ==> Column(ts, m, o) as real / (|ts| as real) <= Cap(m)
  }

  /** A match is overloaded exactly when some outcome's share there passes the cap. */
  lemma OverloadedIff(ts: seq<Ticket>, m: nat)
    requires |ts| > 0
    ensures Overloaded(ts, m) <==> exists o :: Column(ts, m, o) as real / (|ts| as real) > Cap(m)
  {
    var t := ColumnCounts(ts, m);
    var n := |ts| as real;
    var top := TopOutcome(t);
    if Overloaded(ts, m) {
      assert Column(ts, m, top) as real / n > Cap(m);
    }
    forall o | Column(ts, m, o) as real / n > Cap(m)
      ensures Overloaded(ts, m)
    {
      assert t.At(o) <= t.Max();
      DivideMonotone(t.At(o), t.Max(), n);
    }
  }

  lemma DivideMonotone(a: real, b: real, n: real)
    requires n > 0.0 && a <= b
    ensures a / n <= b / n
  {
  }

  /** A non-empty portfolio passes exactly when its pooled shares are in band, every
      ticket has 4 to 6 draws and no match is over-concentrated. */
  lemma ValidIff(ts: seq<Ticket>)
    ensures Validate(ts).valid <==> |ts| > 0 && SharesInBands(ts) && AllDrawsOk(ts) && ConcentrationOk(ts)
  {
    if |ts| > 0 {
      var band, draws, conc := BandErrors(GlobalShares(ts)), DrawErrors(ts), ConcentrationErrors(ts);
      assert Validate(ts).errors == band + draws + conc;
      assert band == [] <==> SharesInBands(ts);
      assert draws == [] <==> AllDrawsOk(ts);
      ConcentrationIff(ts);
      NoErrorsIff(band, draws, conc);
    }
  }

  lemma NoErrorsIff(band: seq<Error>, draws: seq<Error>, conc: seq<Error>)
    ensures band + draws + conc == [] <==> band == [] && draws == [] && conc == []
  {
    assert |band + draws + conc| == |band| + |draws| + |conc|;
  }

  /** No concentration error is reported exactly when no match is over-concentrated. */
  lemma ConcentrationIff(ts: seq<Ticket>)
    ensures ConcentrationErrors(ts) == [] <==> ConcentrationOk(ts)
  {
    if |ts| >= 2 {
      forall m | 0 <= m < MatchCount
        ensures Overloaded(ts, m) <==> exists o :: Column(ts, m, o) as real / (|ts| as real) > Cap(m)
      {
        OverloadedIff(ts, m);
      }
    }
  }

  /** Two or more copies of one full ticket put every pick at 100% of its match, so all
      14 matches are reported and the portfolio is invalid. */
  lemma ClonesAreConcentrated(ts: seq<Ticket>)
    requires |ts| >= 2 && |ts[0].picks| == MatchCount
    requires forall i :: 0 <= i < |ts| ==> ts[i].picks == ts[0].picks
    ensures |ConcentrationErrors(ts)| == MatchCount
    ensures !Validate(ts).valid
  {
    forall m | 0 <= m < MatchCount
      ensures Overloaded(ts, m)
    {
      CloneOverloaded(ts, m);
    }
    assert Overloaded(ts, 0);
  }

  /** Among copies of one ticket, the pick at a match has all the tickets. */
  lemma CloneOverloaded(ts: seq<Ticket>, m: nat)
    requires |ts| >= 2 && m < |ts[0].picks|
    requires forall i :: 0 <= i < |ts| ==> ts[i].picks == ts[0].picks
    ensures Concentration(ts, m) >= 1.0 && (m < MatchCount ==> Overloaded(ts, m))
  {
    var q := ts[0].picks;
    ColumnOfClones(ts, m);
    var t := ColumnCounts(ts, m);
    assert t.At(q[m]) == |ts| as real;
    assert t.Max() >= t.At(q[m]);
  }

  lemma {:induction false} ColumnOfClones(ts: seq<Ticket>, m: nat)
    requires |ts| > 0 && m < |ts[0].picks|
    requires forall i :: 0 <= i < |ts| ==> ts[i].picks == ts[0].picks
    ensures Column(ts, m, ts[0].picks[m]) == |ts|
  {
    if |ts| > 1 {
      var p := ts[..|ts| - 1];
      assert forall i :: 0 <= i < |p| ==> p[i].picks == p[0].picks;
      ColumnOfClones(p, m);
    }
  }
}
